=== FILE: README.md ===
# TF-IDF search server — a Dafny model

This project models the in-process search engine of the `search-server`
repository and proves properties of that model.

The engine works as follows:
- It stores documents, each with an id, a status and a rating.
- It indexes each document's non-stop words twice:
  - a forward index, word → id → term frequency;
  - a reverse index, id → word → term frequency.
- It answers free-text queries with plus words and `-minus` words. It ranks
  the hits by TF-IDF relevance and returns at most five.

Around the server sit:
- a space-only tokenizer;
- a sharded `ConcurrentMap` used by the parallel ranker;
- a `RequestQueue` that remembers the outcome of the last 1440 searches;
- `RemoveDuplicates`, which drops every document whose word set an earlier
  (smaller) id already has.

The server is an immutable record. `SearchServer.Valid` is the consistency
the class keeps:
- the id set equals the key set of the document table;
- the two indexes hold the same (word, id, tf) triples;
- a reverse entry is never empty.

Every throwing operation returns a `Result`:
- `InvalidArgument` carries the reason;
- `OutOfRange` stands for `std::map::at` on a missing key;
- `Terminated` stands for an exception escaping the element function of a
  parallel algorithm, after which the standard library calls `std::terminate`.

Other modelling choices:
- Term frequencies are exact reals: occurrences / number of non-stop words.
- The inverse document frequency is a parameter `idf: (nat, nat) -> real` of
  the document count and the bucket size.
- The parallel variants are sequential folds over the same data.

Modules, one per component:

| module | component |
|---|---|
| `Results` | errors and results |
| `StringProcessing` | the tokenizer |
| `Documents` | document records and predicates |
| `SearchServer` | state, add, remove, frequencies |
| `QueryParser` | query parsing |
| `Ranker` | `FindAllDocuments` / `FindTopDocuments` |
| `Matching` | `MatchDocument` |
| `ConcurrentMaps` | the sharded map |
| `RequestQueues` | the request queue |
| `Duplicates` | `RemoveDuplicates` |
| `Lexicographic`, `IdOrder`, `Sums` | ordering and summation helpers |

Some behaviour of the code is reproduced on purpose:
- **Documents with no non-stop words.** Such a document gets a document-table
  entry and an id, but no reverse entry. `GetWordFrequencies`, sequential
  `RemoveDocument` and `RemoveDuplicates` then hit `map::at` and throw on it.
- **Unguarded `map::at` on query words.** `MatchDocument` reads minus words
  without the "word is indexed" guard, and so do the parallel plus-word
  reads. Parallel `FindAllDocuments` has no such guard either.
- **Parallel `RemoveDocument` on an unknown id** throws.
- **The request-queue counter** is decremented on every eviction, whatever the
  evicted request's outcome, so it can go negative
  (`RequestQueues.CounterGoesNegative`): src/request_queue.h:36-39 drops it
  without looking at the evicted entry.

## Model

| member | source | states |
|---|---|---|
| `StringProcessing.FirstNonSpace` | src/string_processing.cpp:8 | the position skipped to is the first non-space character, or the end; everything before it is a space |
| `StringProcessing.FindSpace` | src/string_processing.cpp:10 | the position found is the first space, or the end (`npos`); everything before it is not a space |
| `StringProcessing.SplitIntoWords` | src/string_processing.cpp:5-15 | every token is non-empty and holds no `' '`, so runs of spaces (leading, trailing or repeated) never give empty tokens |
| `StringProcessing.ConcatSplit` | src/string_processing.cpp:5-15 | the tokens glued back together in order are the input with every space removed |
| `StringProcessing.SplitEmpty` | src/string_processing.cpp:8-9 | no tokens exactly when the input is empty or all spaces |
| `StringProcessing.SplitCountsRuns` | src/string_processing.cpp:9-13 | the number of tokens is the number of maximal runs of non-space characters |
| `StringProcessing.SplitJoin` | src/string_processing.cpp:9-13 | splitting space-free tokens joined by single spaces gives the tokens back (the tokenizer inverts joining) |
| `StringProcessing.SplitSingleWord` | src/string_processing.cpp:10-11 | a non-empty input with no space is one token equal to the input |
| `SearchServer.MakeUniqueNonEmptyStrings` | src/search_server.h:106-114 | the result is exactly the set of non-empty input strings |
| `SearchServer.NewServer` | src/search_server.h:117-126 | throws `invalid_argument` exactly when some non-empty stop word has a control character; otherwise the stop words are the non-empty input words, the document table, the id set and both indexes are empty, and the invariant holds |
| `SearchServer.NewServerFromText` | src/search_server.cpp:6-7 | the string constructor succeeds exactly when every token of the text is valid, and its stop words are those tokens |
| `SearchServer.SplitIntoWordsNoStop` | src/search_server.cpp:101-112 | throws exactly when some token has a control character; otherwise each word occurs as often as in the tokens, except that stop words occur zero times |
| `SearchServer.TruncationBounds` | src/search_server.cpp:119 | C++ `int` division truncates toward zero: the quotient's magnitude is the floor of the magnitudes' quotient, and a non-zero quotient has the dividend's sign |
| `SearchServer.ComputeAverageRating` | src/search_server.cpp:114-120 | 0 without ratings; otherwise the sum divided by the count, rounded toward zero (bounds and sign) |
| `SearchServer.TruncationDiffersFromEuclid` | src/search_server.cpp:119 | for ratings [-1, -2] the average is -1, where Euclidean division would give -2 |
| `SearchServer.AddDocument` | src/search_server.cpp:9-26 | a negative id, then a present id, throws first; otherwise it throws exactly when a token has a control character; on success the document table gains exactly the new entry with the averaged rating, and the id set gains the id |
| `SearchServer.IndexWordsAgree` | src/search_server.cpp:19-23 | the indexing loop keeps the forward and reverse indexes holding the same (word, id, tf) triples |
| `SearchServer.IndexWordsFrame` | src/search_server.cpp:19-23 | the indexing loop touches only the new id's reverse entry, which exists afterwards exactly when there were words; the forward index gains exactly the words |
| `SearchServer.IndexWordsEntry` | src/search_server.cpp:21 | the new reverse entry accumulates `1/n` per occurrence, as the per-document tally does |
| `SearchServer.TallyValues` | src/search_server.cpp:21 | after the loop a word's value has grown by its number of occurrences times `1/n` |
| `SearchServer.TermFrequencies` | src/search_server.cpp:18-22 | for a non-empty word list each word's tf is its occurrences divided by the list length, only the list's words get one, and the tfs sum to 1 |
| `SearchServer.AddDocumentValid` | src/search_server.cpp:9-26 | a successful add keeps the class invariant |
| `SearchServer.AddDocumentIndexes` | src/search_server.cpp:17-23 | after a successful add the new reverse entry holds exactly the text's non-stop words with tf = count / number of non-stop words, summing to 1; the forward index gains exactly those words as keys; a text with no non-stop word leaves both indexes unchanged; other documents keep their entries |
| `SearchServer.AddDocumentCount` | src/search_server.cpp:24-25 | a successful add raises the document count by one |
| `SearchServer.GetDocumentCount` | src/search_server.cpp:39-41 | on a consistent server the count is the number of live ids |
| `SearchServer.Ids` | src/search_server.cpp:168-174 | iteration lists the live ids, each once, ascending |
| `SearchServer.GetWordFrequencies` | src/search_server.cpp:176-182 | an unknown id gives the empty map; a live id throws `out_of_range` exactly when it has no reverse entry |
| `SearchServer.WordFrequenciesAgree` | src/search_server.cpp:176-182 | the frequencies read through the reverse index are exactly the forward-index entries of the document |
| `SearchServer.RemoveDocument` | src/search_server.cpp:184-191 | throws exactly for a live id without a reverse entry; otherwise the id leaves the document table, the reverse index and the id set, and the stop words stay |
| `SearchServer.RemoveDocumentBuckets` | src/search_server.cpp:185-187 | every forward-index word stays, and its bucket loses exactly the removed id |
| `SearchServer.RemoveDocumentValid` | src/search_server.cpp:184-191 | a removal that does not throw keeps the class invariant |
| `SearchServer.RemoveDocumentUnknown` | src/search_server.cpp:176-191 | removing an id that is not stored is a no-op, through the empty frequency map |
| `SearchServer.RemoveDocumentCount` | src/search_server.cpp:184-191 | removing a live document lowers the document count by one |
| `SearchServer.RemoveAfterAdd` | src/search_server.cpp:9-26 | removing a just-added document restores the document table, the reverse index, the id set and the old buckets (new words keep an empty bucket); a document with no non-stop word cannot be removed |
| `SearchServer.BucketRestored` | src/search_server.cpp:185-187 | after add-then-erase a bucket holds exactly what it held before the add |
| `SearchServer.RemoveDocumentParallel` | src/search_server.cpp:197-211 | throws for any id without a reverse entry, stored or not; otherwise the same erasures as the sequential version |
| `SearchServer.RemoveDocumentPoliciesAgree` | src/search_server.cpp:193-211 | both policies agree on a document with indexed words; on an unknown id the sequential one is a no-op and the parallel one throws |
| `SearchServer.RemoveDocumentWith` | src/search_server.cpp:193-195 | whichever policy is chosen, a removal that succeeds deletes the id from the document table, the id set and the reverse index and keeps a consistent server consistent; a failure is `out_of_range` on an id the reverse index lacks |
| `QueryParser.ParseQueryWord` | src/search_server.cpp:122-135 | accepts exactly the non-empty tokens that are not `-`, do not start with `--` and have no control character; an empty token and a malformed one throw with distinct reasons; one leading `-` marks a minus word and is stripped; the stop flag is taken after stripping |
| `QueryParser.ParseWords` | src/search_server.cpp:138-150 | the loop throws exactly when some token is rejected; the plus words are exactly the non-stop tokens without `-`, and the minus words exactly the non-stop words of `-` tokens |
| `QueryParser.ParseQuery` | src/search_server.cpp:138-162 | the same word sets after tokenizing; with sorting on, both lists are strictly increasing (sorted, no duplicates) |
| `QueryParser.ParseQueryCanonical` | src/search_server.cpp:151-159 | the sorted query depends only on which plus and minus words the text holds, not on their order or repetition |
| `Lexicographic.SortDedupe` | src/search_server.cpp:152-154 | `sort` + `unique` + `erase` gives a strictly increasing list with the input's elements |
| `Lexicographic.SortedUnique` | src/search_server.cpp:152-158 | a strictly increasing list is determined by its set of elements |
| `Documents.StatusIs` | src/search_server.h:138-140 | the status filter accepts a document exactly when its status equals the requested one |
| `Ranker.BucketIds` | src/search_server.h:179 | the bucket is visited in ascending id order, each id once, and every id is a stored document |
| `Ranker.AddBucketValue` | src/search_server.h:179-184 | the bucket loop adds tf * idf to exactly the ids the filter accepts and creates no other entry |
| `Ranker.PlusWordValue` | src/search_server.h:175-184 | one plus word adds its contribution to each accepted document it indexes; an unindexed word is skipped |
| `Ranker.PlusPassValue` | src/search_server.h:174-185 | after the plus loop an id is present exactly when it was already, or the filter accepts it and some plus word indexes it; its value grew by the reference relevance, the sum of tf * idf over the plus words |
| `Ranker.EraseIds` | src/search_server.h:190-192 | erasing a bucket's ids removes exactly those ids and keeps the other values |
| `Ranker.MinusPass` | src/search_server.h:186-193 | after the minus loop exactly the ids no minus word indexes remain, with unchanged values; the filter plays no part |
| `Ranker.Emit` | src/search_server.h:194-199 | one document per surviving id, ascending by id, with the accumulated relevance and the stored rating |
| `Ranker.Accumulated` | src/search_server.h:173-193 | the accumulator holds exactly the stored, accepted documents that some plus word and no minus word indexes, each with its reference relevance |
| `Ranker.FindAllDocuments` | src/search_server.h:170-200 | exactly the accepted documents mentioned by a plus word and by no minus word, each once, ascending by id, with TF-IDF relevance and stored rating |
| `Ranker.ParCredit` | src/search_server.h:212 | the sharded `operator[]` + `+=` changes the logical map exactly as the sequential `+=` does |
| `Ranker.ParAddBucket` | src/search_server.h:209-214 | the parallel bucket loop leaves the logical map the sequential bucket loop builds |
| `Ranker.ParPlusWord` | src/search_server.h:207-214 | the element function for an indexed plus word changes the logical map as one sequential plus pass does |
| `Ranker.ParPlusPass` | src/search_server.h:206-215 | terminates exactly when some plus word is unindexed; otherwise the logical map equals the sequential plus loop's |
| `Ranker.ParEraseIds` | src/search_server.h:218-220 | the sharded erasures remove the bucket's ids from the logical map |
| `Ranker.ParMinusPass` | src/search_server.h:216-221 | terminates exactly when some minus word is unindexed; otherwise the logical map equals the sequential minus loop's |
| `Ranker.FindAllDocumentsParallel` | src/search_server.h:202-228 | terminates exactly when some query word is unindexed; otherwise it returns exactly the sequential result |
| `Ranker.BeforeAsymmetric` | src/search_server.h:155-162 | the comparator never orders two documents both ways |
| `Ranker.InsertDocument` | src/search_server.h:154-162 | inserting keeps neighbours in comparator order and adds exactly the new document to the multiset |
| `Ranker.SortDocuments` | src/search_server.h:154-162 | the sorted result is a permutation of the input with no neighbour pair out of comparator order |
| `Ranker.Truncate` | src/search_server.h:164-166 | `resize(5)` keeps the first `min(n, 5)` results |
| `Ranker.FindAllDocumentsWith` | src/search_server.h:153 | under either policy a result that is returned is the sequenced relevance list; the parallel one terminates exactly when a query word is unindexed, and that is the only failure |
| `Ranker.FindTopDocuments` | src/search_server.h:149-168 | a malformed query throws; the sequential policy succeeds exactly when parsing does, the parallel one exactly when every query word is also indexed; the result is the first `min(n, 5)` documents of an arrangement of all n candidates with no neighbours out of comparator order |
| `Ranker.Top` | src/search_server.h:154-166 | sorting then truncating gives the first `min(n, 5)` documents of an arrangement of the whole input with no neighbours out of comparator order |
| `Ranker.TopKeepsHighest` | src/search_server.h:154-166 | when relevances that differ do so by at least `EPSILON`, no dropped document is more relevant than a kept one |
| `Ranker.FindTopKeepsHighest` | src/search_server.h:149-168 | with candidate relevances separated that way, no candidate left out of the top documents is more relevant than one returned |
| `Ranker.FindTopDocumentsFound` | src/search_server.h:149-168 | every returned document is stored, accepted by the filter, mentioned by a plus word and by no minus word of the parsed query, with its TF-IDF relevance; no id is returned twice |
| `Ranker.FindTopIsTop` | src/search_server.h:149-168 | whatever the policy, a result is the sorted-and-truncated list of the sequential candidates |
| `Ranker.TopDistinct` | src/search_server.h:154-166 | candidates with distinct ids stay distinct after sorting and truncation |
| `Ranker.FindTopDocumentsPoliciesAgree` | src/search_server.h:149-168 | when the parallel version does not terminate, it returns what the sequential version returns |
| `Ranker.FindTopDocumentsByStatus` | src/search_server.h:134-141 | the status overload is the predicate search with "status equals the given one", so it returns only documents with that status |
| `Ranker.FindTopDocumentsActual` | src/search_server.h:128-132 | the default overload is the `ACTUAL` status search and the predicate search with "status is `ACTUAL`", so it returns only `ACTUAL` documents |
| `Matching.MinusHit` | src/search_server.cpp:45-48 | with every minus word indexed, the sequential `any_of` is true exactly when one of them holds the document; true implies such a word, false implies all indexed and none holds it, a throw implies an unindexed word |
| `Matching.MinusHitFirst` | src/search_server.cpp:45-48 | the first minus word that is unindexed or holds the document decides: `any_of` is true exactly when some word holds the document after only indexed words, and `map::at` throws exactly when an unindexed word comes after only indexed words none of which holds it |
| `Matching.Matched` | src/search_server.cpp:52-60 | the matched words are exactly the indexed plus words holding the document; sorted input stays sorted |
| `Matching.MatchDocument` | src/search_server.cpp:43-62 | a malformed query throws `invalid_argument`; for a well-formed one the match succeeds exactly when the id is known and the minus scan does not throw (always, when every minus word is indexed), and a throwing scan is `out_of_range`; on success the status is the document's, the words are strictly sorted, empty when a minus word holds the document, and otherwise exactly the query's plus words the document holds |
| `Matching.MatchDocumentParallel` | src/search_server.cpp:69-89 | for a well-formed query it terminates exactly when a minus word is unindexed, or no minus word holds the document and a plus word is unindexed; it succeeds exactly when neither happens and the id is known, any other failure being `out_of_range` on an unknown id; on success the words are the sorted, de-duplicated plus words the document holds |
| `Matching.MatchDocumentWith` | src/search_server.cpp:64-67 | under either policy a match that is returned is the sequential match |
| `Matching.MatchPoliciesAgree` | src/search_server.cpp:43-89 | when the parallel match returns, the sequential one returns the same match; the sequential one fails only where the parallel one fails |
| `ConcurrentMaps.BucketIndex` | src/concurrent_map.h:22 | a key is routed to a bucket below the bucket count, by `uint64(key) mod n`, which needs `n > 0` |
| `ConcurrentMaps.New` | src/concurrent_map.h:19 | the constructor gives `n` empty buckets, a consistent sharding of the empty map |
| `ConcurrentMaps.BucketsDisjoint` | src/concurrent_map.h:22 | in a consistent sharding, distinct buckets share no key |
| `ConcurrentMaps.FlattenFacts` | src/concurrent_map.h:26-33 | `BuildOrdinaryMap` holds a key exactly when its owning bucket does, with that bucket's value |
| `ConcurrentMaps.Access` | src/concurrent_map.h:21-24 | `operator[]` yields the existing value, or inserts and yields the default; only the owning bucket changes, and the logical map gains at most that key |
| `ConcurrentMaps.Store` | src/concurrent_map.h:23 | a write through the returned reference is a map update under `BuildOrdinaryMap` that touches only the owning bucket |
| `ConcurrentMaps.Erase` | src/concurrent_map.h:35-39 | `erase` is map removal under `BuildOrdinaryMap` and keeps the sharding consistent; an absent key leaves the map as it was |
| `RequestQueues.NewQueue` | src/request_queue.cpp:5-6 | a new queue has an empty window, a zero counter and sequence number 0 |
| `RequestQueues.AddNewRequest` | src/request_queue.cpp:23-32 | the request gets the next sequence number and is appended with its outcome; an empty result adds one to the counter, a non-empty one leaves it |
| `RequestQueues.Record` | src/request_queue.h:36-43 | a full window first loses its oldest entry and the counter drops by one, whatever that entry's outcome; then exactly one entry is appended |
| `RequestQueues.RecordValid` | src/request_queue.h:36-43 | recording keeps the window within 1440 entries, numbered consecutively; a full window stays full, any other grows by one |
| `RequestQueues.AddFindRequest` | src/request_queue.h:33-45 | the answer is exactly the sequential `FindTopDocuments` result; a throwing search leaves no trace in the queue |
| `RequestQueues.AddFindRequestByStatus` | src/request_queue.cpp:8-13 | the status overload is the filtered request and returns only documents with that status |
| `RequestQueues.AddFindRequestActual` | src/request_queue.cpp:15-17 | the default overload is the `ACTUAL` status request and the predicate request with "status is `ACTUAL`"; every document it records is a stored `ACTUAL` one |
| `RequestQueues.ReplayWindow` | src/request_queue.h:36-43 | after `n` requests the window holds the last `min(n, 1440)` outcomes, oldest first, numbered consecutively up to `n` (FIFO eviction) |
| `RequestQueues.WindowStep` | src/request_queue.h:36-43 | one more request drops the oldest entry of a full window and appends the new one |
| `RequestQueues.ReplayCounter` | src/request_queue.h:36-39 | after `n` requests the counter is the number of empty results less the number of evictions, not the failures in the window |
| `RequestQueues.CounterBeforeOverflow` | src/request_queue.cpp:23-32 | until the window first overflows, the counter is the number of empty results, all of which are in the window |
| `RequestQueues.CounterGoesNegative` | src/request_queue.h:38 | after 1441 successful requests the counter is -1 |
| `RequestQueues.FirstFailureEvicted` | src/request_queue.h:36-39 | after 1441 requests of which only the first failed, the counter is 0 and every remembered request has results |
| `Duplicates.Fingerprint` | src/remove_duplicates.cpp:12-15 | a document's fingerprint is its set of words, frequencies ignored; it throws exactly for a live id without a reverse entry |
| `Duplicates.Scan` | src/remove_duplicates.cpp:10-22 | the first loop throws `out_of_range` exactly when some visited id has no reverse entry |
| `Duplicates.ScanUnique` | src/remove_duplicates.cpp:16-21 | the remembered fingerprints are exactly those of the visited ids |
| `Duplicates.ScanDuplicates` | src/remove_duplicates.cpp:10-22 | the duplicates are exactly the visited ids whose fingerprint an earlier visited id has |
| `Duplicates.RemoveDuplicates` | src/remove_duplicates.cpp:5-28 | throws exactly when some live document has no reverse entry |
| `Duplicates.RemoveOne` | src/remove_duplicates.cpp:26 | one removal never throws on a consistent server and removes exactly that document everywhere |
| `Duplicates.RemoveAllEffect` | src/remove_duplicates.cpp:24-27 | the removal loop never throws on a consistent server, keeps it consistent, and removes exactly the listed documents from every table and bucket |
| `Duplicates.DuplicateIsLater` | src/remove_duplicates.cpp:10-22 | over the ascending ids, every duplicate found has a smaller id with the same fingerprint |
| `Duplicates.LaterIsDuplicate` | src/remove_duplicates.cpp:10-22 | every live document with a smaller id of the same fingerprint is found as a duplicate |
| `Duplicates.RemovesLaterDuplicates` | src/remove_duplicates.cpp:5-28 | when the first loop does not throw, the function removes, ascending, exactly the documents a smaller id shares a fingerprint with |
| `Duplicates.RemovedLaterDuplicates` | src/remove_duplicates.cpp:24-27 | removing exactly those documents deduplicates the server |
| `Duplicates.RemoveDuplicatesEffect` | src/remove_duplicates.cpp:5-28 | on success the server stays consistent; a document stays exactly when no smaller id shares its fingerprint; survivors keep their data and frequencies; every bucket loses exactly the removed ids |
| `Duplicates.RemoveDuplicatesKeepsFirst` | src/remove_duplicates.cpp:16-27 | the smallest id of every fingerprint survives, with that fingerprint |
| `Duplicates.RemoveDuplicatesDistinct` | src/remove_duplicates.cpp:8-27 | afterwards no two live documents share a fingerprint |
| `Duplicates.RemoveDuplicatesIdempotent` | src/remove_duplicates.cpp:8-27 | a second run changes nothing |

## Left out

- src/process_queries.cpp is not part of this model. It is a parallel fan-out of `FindTopDocuments` and a concatenation of the results.
- src/test_example_functions.h is not part of this model. It declares printing and timing helpers only.
- document.h is not part of this model. Its `Document` record and `DocumentStatus` enum are written out as `Documents.Document` and `Documents.Status`.
- Mutexes, `lock_guard` and the execution policies are not modelled. Every parallel algorithm is a sequential fold over the same data in sequence order, so interleavings and data races are not modelled.
- The parallel `any_of` and `copy_if` in `MatchDocument` are taken to evaluate the element function on every word. So any unindexed minus word, or without a minus hit any unindexed plus word, terminates. An implementation that stops early could return instead.
- `log` and double rounding are not modelled. The idf is the parameter `idf(document count, bucket size)`, and tf and relevance are exact reals, so floating-point differences between the two ranking paths do not appear.
- `string_view` lifetimes and the `std::deque` arena that interns indexed words are not modelled. Words are plain strings.
- `RemoveDuplicates` prints each removed id to `cout`. The output is not modelled.
- The non-policy `FindTopDocuments` overloads (src/search_server.cpp:28-37, src/search_server.h:143-147) have no member of their own. They are `Ranker.FindTopDocuments` with `Sequential`, and so are `RequestQueues.AddFindRequest`'s searches.
- `RequestQueues.GetNoResultRequests` reads the counter and has no contract of its own. What the counter holds is stated by `RequestQueues.ReplayCounter`, `RequestQueues.CounterBeforeOverflow`, `RequestQueues.CounterGoesNegative` and `RequestQueues.FirstFailureEvicted`.
- SearchServer.ComputeAverageRating: does not model `int` overflow of the rating sum, because integers here are unbounded.
- RequestQueues.Record: does not model `int` overflow of the counter or of the sequence number, for the same reason.
- Ranker.SortDocuments: states only that no neighbour pair is out of comparator order, because the comparator is not a strict weak order. Closeness within `EPSILON` is not transitive, so `std::sort` promises no order at all for it: with such a comparator its behaviour is undefined. Neighbour order is what the insertion sort of the model gives, one behaviour the C++ code may show. Ties keep input order here, while the C++ code leaves their order unspecified.
- Ranker.FindTopDocuments: inherits the same neighbour-only ordering from `Ranker.SortDocuments`. The kept documents are the front of that arrangement. That they are the most relevant candidates is proved (`Ranker.FindTopKeepsHighest`) only when relevances that differ are at least `EPSILON` apart.
- QueryParser.ParseQueryWord: reads the second character only when there is one. The C++ code also reads `text[1]` on the one-character token `-`, which it then rejects anyway.

=== FILE: concurrent_map.dfy ===
/** `ConcurrentMap<int, V>`: a fixed vector of buckets, each an ordered
    submap guarded by its own mutex. The mutexes and the `Access` guard are
    abstracted away; what is left is the routing of keys to buckets and
    the map operations on the owning bucket. */
module ConcurrentMaps {

  /** `static_cast<uint64_t>` wraps a (possibly negative) key modulo 2^64. */
  const UINT64_MODULUS: int := 0x1_0000_0000_0000_0000

  /** The bucket owning `key`: `static_cast<uint64_t>(key) % size()`. */
  function BucketIndex(key: int, bucketCount: nat): (i: nat)
    requires bucketCount > 0
    ensures i < bucketCount
  {
    (key % UINT64_MODULUS) % bucketCount
  }

  datatype ConcurrentMap<V> = ConcurrentMap(buckets: seq<map<int, V>>)

  /** Every key sits in the bucket that `BucketIndex` routes it to. The
      bucket count must be positive, or the routing divides by zero. */
  predicate Valid<V>(cm: ConcurrentMap<V>)
  {
    && |cm.buckets| > 0
    && forall i, k :: 0 <= i < |cm.buckets| && k in cm.buckets[i] ==>
         BucketIndex(k, |cm.buckets|) == i
  }

  /** The constructor: `bucketCount` empty buckets. */
  function New<V>(bucketCount: nat): (cm: ConcurrentMap<V>)
    requires bucketCount > 0
    ensures Valid(cm)
    ensures |cm.buckets| == bucketCount
    ensures BuildOrdinaryMap(cm) == map[]
  {
    var cm := ConcurrentMap(seq(bucketCount, _ => map[]));
    FlattenFacts(cm);
    SameMap(BuildOrdinaryMap(cm), map[]);
    cm
  }

  /** `result.insert(first, last)`: keys already in `result` keep their value. */
  function InsertAbsent<V>(result: map<int, V>, m: map<int, V>): (r: map<int, V>)
  {
    map k | k in result.Keys + m.Keys :: if k in result then result[k] else m[k]
  }

  /** The loop of `BuildOrdinaryMap` over the first `n` buckets. */
  function MergeBuckets<V>(buckets: seq<map<int, V>>, n: nat): map<int, V>
    requires n <= |buckets|
  {
    if n == 0 then map[] else InsertAbsent(MergeBuckets(buckets, n - 1), buckets[n - 1])
  }

  /** `BuildOrdinaryMap`: the buckets merged in index order. */
  function BuildOrdinaryMap<V>(cm: ConcurrentMap<V>): map<int, V>
  {
    MergeBuckets(cm.buckets, |cm.buckets|)
  }

  /** Distinct buckets never share a key. */
  lemma BucketsDisjoint<V>(cm: ConcurrentMap<V>, i: nat, j: nat)
    requires Valid(cm)
    requires i < |cm.buckets| && j < |cm.buckets| && i != j
    ensures cm.buckets[i].Keys !! cm.buckets[j].Keys
  {
    forall k | k in cm.buckets[i].Keys ensures k !in cm.buckets[j].Keys {
      assert BucketIndex(k, |cm.buckets|) == i;
    }
  }

  lemma SameMap<V>(a: map<int, V>, b: map<int, V>)
    requires forall k :: k in a <==> k in b
    requires forall k :: k in a ==> a[k] == b[k]
    ensures a == b
  {
    assert (forall k :: k in a <==> k in b) && (forall k :: k in a ==> a[k] == b[k]) ==> a == b;
  }

  lemma {:induction false} MergeFacts<V>(cm: ConcurrentMap<V>, n: nat)
    requires Valid(cm)
    requires n <= |cm.buckets|
    ensures forall k :: k in MergeBuckets(cm.buckets, n) <==>
      BucketIndex(k, |cm.buckets|) < n && k in cm.buckets[BucketIndex(k, |cm.buckets|)]
    ensures forall k :: k in MergeBuckets(cm.buckets, n) ==>
      MergeBuckets(cm.buckets, n)[k] == cm.buckets[BucketIndex(k, |cm.buckets|)][k]
  {
    if n > 0 {
      MergeFacts(cm, n - 1);
    }
  }

  /** The flattened map holds exactly what the owning buckets hold: it is
      the logical map the sharded structure represents. */
  lemma FlattenFacts<V>(cm: ConcurrentMap<V>)
    requires Valid(cm)
    ensures forall k :: k in BuildOrdinaryMap(cm) <==> k in cm.buckets[BucketIndex(k, |cm.buckets|)]
    ensures forall k :: k in BuildOrdinaryMap(cm) ==>
      BuildOrdinaryMap(cm)[k] == cm.buckets[BucketIndex(k, |cm.buckets|)][k]
  {
    MergeFacts(cm, |cm.buckets|);
  }

  /** `operator[]`: the value stored under `key`, inserting `zero` (the
      value-initialised `V`) into the owning bucket when it is absent. The
      returned map is the state after the insertion. */
  function Access<V>(cm: ConcurrentMap<V>, key: int, zero: V): (r: (ConcurrentMap<V>, V))
    requires Valid(cm)
    ensures Valid(r.0)
    ensures r.1 == if key in BuildOrdinaryMap(cm) then BuildOrdinaryMap(cm)[key] else zero
    ensures BuildOrdinaryMap(r.0) == BuildOrdinaryMap(cm)[key := r.1]
    ensures |r.0.buckets| == |cm.buckets|
    ensures forall i :: 0 <= i < |cm.buckets| && i != BucketIndex(key, |cm.buckets|) ==>
      r.0.buckets[i] == cm.buckets[i]
  {
    var b := BucketIndex(key, |cm.buckets|);
    var bucket := cm.buckets[b];
    var value := if key in bucket then bucket[key] else zero;
    var cm' := ConcurrentMap(cm.buckets[b := bucket[key := value]]);
    FlattenFacts(cm);
    FlattenFacts(cm');
    SameMap(BuildOrdinaryMap(cm'), BuildOrdinaryMap(cm)[key := value]);
    (cm', value)
  }

  /** A write through the reference `Access` hands out
      (`ref_to_value = value`). */
  function Store<V>(cm: ConcurrentMap<V>, key: int, value: V): (r: ConcurrentMap<V>)
    requires Valid(cm)
    ensures Valid(r)
    ensures BuildOrdinaryMap(r) == BuildOrdinaryMap(cm)[key := value]
    ensures |r.buckets| == |cm.buckets|
    ensures forall i :: 0 <= i < |cm.buckets| && i != BucketIndex(key, |cm.buckets|) ==>
      r.buckets[i] == cm.buckets[i]
  {
    var b := BucketIndex(key, |cm.buckets|);
    var r := ConcurrentMap(cm.buckets[b := cm.buckets[b][key := value]]);
    FlattenFacts(cm);
    FlattenFacts(r);
    SameMap(BuildOrdinaryMap(r), BuildOrdinaryMap(cm)[key := value]);
    r
  }

  /** `erase`: removes `key` from its owning bucket; absent keys leave the
      map as it was. */
  function Erase<V>(cm: ConcurrentMap<V>, key: int): (r: ConcurrentMap<V>)
    requires Valid(cm)
    ensures Valid(r)
    ensures BuildOrdinaryMap(r) == BuildOrdinaryMap(cm) - {key}
    ensures key !in BuildOrdinaryMap(cm) ==> r == cm
    ensures |r.buckets| == |cm.buckets|
    ensures forall i :: 0 <= i < |cm.buckets| && i != BucketIndex(key, |cm.buckets|) ==>
      r.buckets[i] == cm.buckets[i]
  {
    var b := BucketIndex(key, |cm.buckets|);
    var r := ConcurrentMap(cm.buckets[b := cm.buckets[b] - {key}]);
    FlattenFacts(cm);
    FlattenFacts(r);
    SameMap(BuildOrdinaryMap(r), BuildOrdinaryMap(cm) - {key});
    if key in cm.buckets[b] then r else
      assert cm.buckets[b] - {key} == cm.buckets[b];
      assert cm.buckets[b := cm.buckets[b]] == cm.buckets;
      r
  }
}

=== FILE: documents.dfy ===
/** The records the search server exchanges with its callers. Their
    declarations live in `document.h`, which is not part of this model;
    the fields below are the ones the server reads and writes. */
module Documents {

  datatype Status = Actual | Irrelevant | Banned | Removed

  /** One search hit: the document id, its TF-IDF relevance and its rating. */
  datatype Document = Document(id: int, relevance: real, rating: int)

  /** What the server stores per document besides its words. */
  datatype DocumentData = DocumentData(rating: int, status: Status)

  /** The caller's filter `(id, status, rating) -> bool`. */
  type DocumentPredicate = (int, Status, int) -> bool

  /** The filter the status overloads build: status equality. */
  function StatusIs(status: Status): (p: DocumentPredicate)
    ensures forall id, s, rating :: p(id, s, rating) <==> s == status
  {
    (id: int, s: Status, rating: int) => s == status
  }
}

=== FILE: duplicates.dfy ===
/** `RemoveDuplicates`: of the documents holding the same set of words,
    whatever their frequencies, only the one with the smallest id stays. */
module Duplicates {
  import opened Results
  import opened SearchServer
  import IdOrder

  /** The words of a stored document, as its reverse entry lists them. */
  function Words(s: Server, id: int): set<string>
  {
    if id in s.idToDocumentFreqs then s.idToDocumentFreqs[id].Keys else {}
  }

  /** The word set of `GetWordFrequencies(id)`, which throws for a live
      document without a reverse entry. */
  function Fingerprint(s: Server, id: int): (r: Result<set<string>>)
    ensures id in s.documentIds ==> (r.Ok? <==> id in s.idToDocumentFreqs)
    ensures id in s.documentIds && r.Ok? ==> r.value == Words(s, id)
    ensures r.Err? ==> r.error == OutOfRange
  {
    var freqs :- GetWordFrequencies(s, id);
    Ok(freqs.Keys)
  }

  /** The state of the first loop: the first id seen with each word set,
      and the ids whose word set was seen before. */
  datatype Scanned = Scanned(unique: map<set<string>, int>, duplicates: set<int>)

  /** The i-th id shares its word set with an earlier id of the list. */
  predicate SeenBefore(s: Server, ids: seq<int>, i: int)
    requires 0 <= i < |ids|
  {
    exists j :: 0 <= j < i && Words(s, ids[j]) == Words(s, ids[i])
  }

  /** The first loop of `RemoveDuplicates` over `ids`, in order: it
      throws at the first id without a reverse entry; otherwise a word set
      not met before is remembered with its id, and an id whose word set
      was met before is a duplicate. */
  function Scan(s: Server, ids: seq<int>): (r: Result<Scanned>)
    requires forall i :: 0 <= i < |ids| ==> ids[i] in s.documentIds
    ensures r.Ok? <==> forall i :: 0 <= i < |ids| ==> ids[i] in s.idToDocumentFreqs
    ensures r.Err? ==> r.error == OutOfRange
  {
    if ids == [] then Ok(Scanned(map[], {}))
    else
      var n := |ids|;
      var init := ids[..n - 1];
      var id := ids[n - 1];
      assert forall i :: 0 <= i < |init| ==> init[i] == ids[i];
      var st :- Scan(s, init);
      var ws :- Fingerprint(s, id);
      if ws in st.unique then Ok(Scanned(st.unique, st.duplicates + {id}))
      else Ok(Scanned(st.unique[ws := id], st.duplicates))
  }

  /** After the first loop the remembered word sets are those of the ids
      visited. */
  lemma {:induction false} ScanUnique(s: Server, ids: seq<int>)
    requires forall i :: 0 <= i < |ids| ==> ids[i] in s.documentIds
    requires forall i :: 0 <= i < |ids| ==> ids[i] in s.idToDocumentFreqs
    ensures forall ws :: ws in Scan(s, ids).value.unique <==> exists i :: 0 <= i < |ids| && Words(s, ids[i]) == ws
  {
    if ids != [] {
      var n := |ids|;
      var init := ids[..n - 1];
      var id := ids[n - 1];
      assert forall i :: 0 <= i < |init| ==> init[i] == ids[i];
      ScanUnique(s, init);
      var prev := Scan(s, init).value;
      var st := Scan(s, ids).value;
      var ws := Words(s, id);
      assert Fingerprint(s, id) == Ok(ws);
      assert st.unique == if ws in prev.unique then prev.unique else prev.unique[ws := id];
      forall v
        ensures v in st.unique <==> exists i :: 0 <= i < |ids| && Words(s, ids[i]) == v
      {
        if v in st.unique && v != ws {
          assert v in prev.unique;
          var i :| 0 <= i < |init| && Words(s, init[i]) == v;
          assert Words(s, ids[i]) == v;
        }
      }
    }
  }

  /** After the first loop the duplicates are the ids some earlier id
      shares its word set with. */
  lemma {:induction false} ScanDuplicates(s: Server, ids: seq<int>)
    requires forall i :: 0 <= i < |ids| ==> ids[i] in s.documentIds
    requires forall i :: 0 <= i < |ids| ==> ids[i] in s.idToDocumentFreqs
    ensures forall d :: d in Scan(s, ids).value.duplicates <==>
      exists i :: 0 <= i < |ids| && ids[i] == d && SeenBefore(s, ids, i)
  {
    if ids != [] {
      var n := |ids|;
      var init := ids[..n - 1];
      var id := ids[n - 1];
      assert forall i :: 0 <= i < |init| ==> init[i] == ids[i];
      ScanDuplicates(s, init);
      ScanUnique(s, init);
      ScanStep(s, ids);
      var prev := Scan(s, init).value;
      var ws := Words(s, id);
      assert Fingerprint(s, id) == Ok(ws);
      assert ws in prev.unique <==> SeenBefore(s, ids, n - 1);
      DuplicatesStep(s, ids, init, prev.duplicates, Scan(s, ids).value.duplicates);
    }
  }

  /** The step of `ScanDuplicates`: adding the last id when its word set
      was seen extends the characterisation from the prefix to the list. */
  lemma DuplicatesStep(s: Server, ids: seq<int>, init: seq<int>, prev: set<int>, next: set<int>)
    requires ids != [] && init == ids[..|ids| - 1]
    requires forall d :: d in prev <==> exists i :: 0 <= i < |init| && init[i] == d && SeenBefore(s, init, i)
    requires next == if SeenBefore(s, ids, |ids| - 1) then prev + {ids[|ids| - 1]} else prev
    ensures forall d :: d in next <==> exists i :: 0 <= i < |ids| && ids[i] == d && SeenBefore(s, ids, i)
  {
    var n := |ids|;
    ScanStep(s, ids);
    forall d | d in next
      ensures exists i :: 0 <= i < |ids| && ids[i] == d && SeenBefore(s, ids, i)
    {
      if d in prev {
        var i :| 0 <= i < |init| && init[i] == d && SeenBefore(s, init, i);
        assert ids[i] == d && SeenBefore(s, ids, i);
      } else {
        assert ids[n - 1] == d && SeenBefore(s, ids, n - 1);
      }
    }
    forall i | 0 <= i < |ids| && SeenBefore(s, ids, i)
      ensures ids[i] in next
    {
      if i < n - 1 {
        assert init[i] == ids[i] && SeenBefore(s, init, i);
      }
    }
  }

  /** What the last id of a list adds: an earlier id of the same word set
      exists exactly when some id of the prefix has it; and the prefix's
      own indices keep their earlier-ness. */
  lemma ScanStep(s: Server, ids: seq<int>)
    requires ids != []
    ensures var n := |ids|; var init := ids[..n - 1];
      && (SeenBefore(s, ids, n - 1) <==> exists i :: 0 <= i < |init| && Words(s, init[i]) == Words(s, ids[n - 1]))
      && (forall i :: 0 <= i < |init| ==> init[i] == ids[i] && (SeenBefore(s, init, i) <==> SeenBefore(s, ids, i)))
  {
    var n := |ids|;
    var init := ids[..n - 1];
    assert forall i :: 0 <= i < |init| ==> init[i] == ids[i];
  }

  /** The second loop: `RemoveDocument` on each id in turn; the first
      failure is the result. */
  function RemoveAll(s: Server, ids: seq<int>): (r: Result<Server>)
    decreases |ids|
  {
    if ids == [] then Ok(s)
    else
      var t :- RemoveDocument(s, ids[0]);
      RemoveAll(t, ids[1..])
  }

  /** `RemoveDuplicates`: the first loop visits the ids ascending, the
      second removes the duplicates ascending. */
  function RemoveDuplicates(s: Server): (r: Result<Server>)
    ensures r.Err? <==> exists d :: d in s.documentIds && d !in s.idToDocumentFreqs
    ensures r.Err? ==> r.error == OutOfRange
  {
    var ids := Ids(s);
    var st :- Scan(s, ids);
    var dups := IdOrder.Sorted(st.duplicates);
    RemoveAllSucceeds(s, dups);
    RemoveAll(s, dups)
  }

  /** The members of a list of ids. */
  function Elems(ids: seq<int>): set<int>
  {
    set d | d in ids
  }

  /** Removing ids that all have a reverse entry (or are not stored) never
      throws. */
  lemma {:induction false} RemoveAllSucceeds(s: Server, ids: seq<int>)
    requires forall i :: 0 <= i < |ids| && ids[i] in s.documentIds ==> ids[i] in s.idToDocumentFreqs
    ensures RemoveAll(s, ids).Ok?
    decreases |ids|
  {
    if ids != [] {
      var t := RemoveDocument(s, ids[0]);
      assert t.Ok?;
      var rest := ids[1..];
      assert forall i :: 0 <= i < |rest| ==> rest[i] == ids[i + 1];
      RemoveAllSucceeds(t.value, rest);
    }
  }

  /** `t` is `s` with the documents `gone` removed: from the document
      table, the reverse index, the id set and every forward bucket. */
  ghost predicate Without(s: Server, t: Server, gone: set<int>)
  {
    && t.stopWords == s.stopWords
    && t.documents == s.documents - gone
    && t.idToDocumentFreqs == s.idToDocumentFreqs - gone
    && t.documentIds == s.documentIds - gone
    && (forall w :: w in t.wordToDocumentFreqs <==> w in s.wordToDocumentFreqs)
    && (forall w :: w in s.wordToDocumentFreqs ==> t.wordToDocumentFreqs[w] == s.wordToDocumentFreqs[w] - gone)
  }

  /** Nothing removed. */
  lemma WithoutNothing(s: Server)
    ensures Without(s, s, {})
  {
    assert s.documents - {} == s.documents;
    assert s.idToDocumentFreqs - {} == s.idToDocumentFreqs;
    forall w | w in s.wordToDocumentFreqs
      ensures s.wordToDocumentFreqs[w] == s.wordToDocumentFreqs[w] - {}
    {
      var b := s.wordToDocumentFreqs[w];
      assert b - {} == b;
    }
  }

  /** Two removals in a row remove the union. */
  lemma WithoutThen(s: Server, t: Server, r: Server, a: set<int>, b: set<int>)
    requires Without(s, t, a) && Without(t, r, b)
    ensures Without(s, r, a + b)
  {
    assert r.documents == s.documents - (a + b);
    assert r.idToDocumentFreqs == s.idToDocumentFreqs - (a + b);
    forall w | w in s.wordToDocumentFreqs
      ensures r.wordToDocumentFreqs[w] == s.wordToDocumentFreqs[w] - (a + b)
    {
      assert (s.wordToDocumentFreqs[w] - a) - b == s.wordToDocumentFreqs[w] - (a + b);
    }
  }

  /** One `RemoveDocument` on a consistent server that does not throw. */
  lemma RemoveOne(s: Server, id: int)
    requires Valid(s)
    requires id in s.documentIds ==> id in s.idToDocumentFreqs
    ensures RemoveDocument(s, id).Ok?
    ensures Valid(RemoveDocument(s, id).value)
    ensures Without(s, RemoveDocument(s, id).value, {id})
  {
    RemoveDocumentValid(s, id);
    RemoveDocumentBuckets(s, id);
  }

  /** Removing a list of ids from a consistent server: the result is
      consistent and is the server without those documents. */
  lemma {:induction false} RemoveAllEffect(s: Server, ids: seq<int>)
    requires Valid(s)
    requires forall i :: 0 <= i < |ids| && ids[i] in s.documentIds ==> ids[i] in s.idToDocumentFreqs
    ensures RemoveAll(s, ids).Ok?
    ensures Valid(RemoveAll(s, ids).value)
    ensures Without(s, RemoveAll(s, ids).value, Elems(ids))
    decreases |ids|
  {
    if ids == [] {
      assert Elems(ids) == {};
      WithoutNothing(s);
    } else {
      var id := ids[0];
      var rest := ids[1..];
      RemoveOne(s, id);
      var t := RemoveDocument(s, id).value;
      assert forall i :: 0 <= i < |rest| ==> rest[i] == ids[i + 1];
      RemoveAllEffect(t, rest);
      assert RemoveAll(s, ids) == RemoveAll(t, rest);
      assert Elems(ids) == {id} + Elems(rest);
      WithoutThen(s, t, RemoveAll(t, rest).value, {id}, Elems(rest));
    }
  }

  /** `d` is a later document of a word set held by a smaller id. */
  predicate LaterDuplicate(s: Server, d: int)
  {
    exists e :: e in s.documentIds && e < d && Words(s, e) == Words(s, d)
  }

  /** The documents some smaller id shares its word set with. */
  function LaterDuplicates(s: Server): (r: set<int>)
    ensures forall d :: d in r <==> d in s.documentIds && LaterDuplicate(s, d)
  {
    set d | d in s.documentIds && LaterDuplicate(s, d)
  }

  /** A duplicate the first loop finds over the ascending ids has a
      smaller id with its word set. */
  lemma DuplicateIsLater(s: Server, d: int)
    requires forall e :: e in s.documentIds ==> e in s.idToDocumentFreqs
    requires d in Scan(s, Ids(s)).value.duplicates
    ensures d in LaterDuplicates(s)
  {
    var ids := Ids(s);
    ScanDuplicates(s, ids);
    var i :| 0 <= i < |ids| && ids[i] == d && SeenBefore(s, ids, i);
    var j :| 0 <= j < i && Words(s, ids[j]) == Words(s, ids[i]);
    assert ids[j] in s.documentIds && ids[j] < d;
  }

  /** A document with a smaller id of the same word set is a duplicate
      the first loop finds. */
  lemma {:induction false} LaterIsDuplicate(s: Server, d: int)
    requires forall e :: e in s.documentIds ==> e in s.idToDocumentFreqs
    requires d in LaterDuplicates(s)
    ensures d in Scan(s, Ids(s)).value.duplicates
  {
    var ids := Ids(s);
    var e :| e in s.documentIds && e < d && Words(s, e) == Words(s, d);
    var i :| 0 <= i < |ids| && ids[i] == d;
    var j :| 0 <= j < |ids| && ids[j] == e;
    EarlierIndex(ids, i, j);
    assert SeenBefore(s, ids, i);
    ScanDuplicates(s, ids);
  }

  /** In an ascending list a smaller element sits at a smaller index. */
  lemma EarlierIndex(ids: seq<int>, i: int, j: int)
    requires IdOrder.Ascending(ids)
    requires 0 <= i < |ids| && 0 <= j < |ids| && ids[j] < ids[i]
    ensures j < i
  {
  }

  /** When the first loop does not throw, `RemoveDuplicates` removes the
      later duplicates, ascending. */
  lemma RemovesLaterDuplicates(s: Server)
    requires forall d :: d in s.documentIds ==> d in s.idToDocumentFreqs
    ensures RemoveDuplicates(s) == RemoveAll(s, IdOrder.Sorted(LaterDuplicates(s)))
  {
    var st := Scan(s, Ids(s)).value;
    forall d
      ensures d in st.duplicates <==> d in LaterDuplicates(s)
    {
      if d in st.duplicates {
        DuplicateIsLater(s, d);
      }
      if d in LaterDuplicates(s) {
        LaterIsDuplicate(s, d);
      }
    }
    assert st.duplicates == LaterDuplicates(s);
  }

  /** The ascending listing of a set has the set's members. */
  lemma SortedElems(x: set<int>)
    ensures Elems(IdOrder.Sorted(x)) == x
  {
  }

  /** How `RemoveDuplicates` relates its result `t` to `s`: a document
      stays exactly when no smaller id shares its word set; the documents
      that stay keep their data and their frequencies; every forward bucket
      loses exactly the removed ids. */
  ghost predicate Deduplicated(s: Server, t: Server)
  {
    && t.stopWords == s.stopWords
    && (forall d :: d in t.documents <==> d in s.documents && !LaterDuplicate(s, d))
    && t.documentIds == t.documents.Keys
    && (forall d :: d in t.documents ==> t.documents[d] == s.documents[d])
    && (forall d :: d in t.idToDocumentFreqs <==> d in s.idToDocumentFreqs && d in t.documents)
    && (forall d :: d in t.idToDocumentFreqs ==> t.idToDocumentFreqs[d] == s.idToDocumentFreqs[d])
    && (forall w :: w in t.wordToDocumentFreqs <==> w in s.wordToDocumentFreqs)
    && (forall w, d :: w in t.wordToDocumentFreqs ==>
          (d in t.wordToDocumentFreqs[w] <==> d in s.wordToDocumentFreqs[w] && d in t.documents))
  }

  /** Removing exactly the later duplicates gives a deduplicated server. */
  lemma RemovedLaterDuplicates(s: Server, t: Server, gone: set<int>)
    requires PostingsStored(s) && forall d :: d in s.idToDocumentFreqs ==> d in s.documents
    requires forall d :: d in gone <==> d in s.documentIds && LaterDuplicate(s, d)
    requires s.documentIds == s.documents.Keys && t.documentIds == t.documents.Keys
    requires Without(s, t, gone)
    ensures Deduplicated(s, t)
  {
  }

  /** `RemoveDuplicates` on a consistent server that does not throw
      deduplicates it and keeps it consistent. */
  lemma RemoveDuplicatesEffect(s: Server)
    requires Valid(s)
    ensures RemoveDuplicates(s).Ok? ==> Valid(RemoveDuplicates(s).value)
    ensures RemoveDuplicates(s).Ok? ==> Deduplicated(s, RemoveDuplicates(s).value)
  {
    if RemoveDuplicates(s).Ok? {
      RemovesLaterDuplicates(s);
      var dups := IdOrder.Sorted(LaterDuplicates(s));
      SortedElems(LaterDuplicates(s));
      RemoveAllEffect(s, dups);
      ValidPostingsStored(s);
      RemovedLaterDuplicates(s, RemoveDuplicates(s).value, LaterDuplicates(s));
    }
  }

  /** The stored documents holding the same word set as `d`. */
  function Holders(s: Server, d: int): (r: set<int>)
    ensures forall e :: e in r <==> e in s.documentIds && Words(s, e) == Words(s, d)
  {
    set e | e in s.documentIds && Words(s, e) == Words(s, d)
  }

  /** Every stored document keeps its word set: the smallest holder of a
      word set always stays. */
  lemma RemoveDuplicatesKeepsFirst(s: Server, d: int)
    requires Valid(s) && d in s.documentIds
    ensures d in Holders(s, d)
    ensures RemoveDuplicates(s).Ok? ==>
      && IdOrder.Min(Holders(s, d)) <= d
      && IdOrder.Min(Holders(s, d)) in RemoveDuplicates(s).value.documentIds
      && Words(RemoveDuplicates(s).value, IdOrder.Min(Holders(s, d))) == Words(s, d)
  {
    if RemoveDuplicates(s).Ok? {
      RemoveDuplicatesEffect(s);
      var keeper := IdOrder.Min(Holders(s, d));
      assert keeper in Holders(s, d);
      forall e | e in s.documentIds && Words(s, e) == Words(s, keeper)
        ensures keeper <= e
      {
        assert e in Holders(s, d);
      }
      assert !LaterDuplicate(s, keeper);
    }
  }

  /** Afterwards no two stored documents hold the same word set. */
  lemma RemoveDuplicatesDistinct(s: Server)
    requires Valid(s)
    ensures RemoveDuplicates(s).Ok? ==>
      forall d, e :: d in RemoveDuplicates(s).value.documentIds && e in RemoveDuplicates(s).value.documentIds && d != e ==>
        Words(RemoveDuplicates(s).value, d) != Words(RemoveDuplicates(s).value, e)
  {
    if RemoveDuplicates(s).Ok? {
      var t := RemoveDuplicates(s).value;
      RemoveDuplicatesEffect(s);
      forall d, e | d in t.documentIds && e in t.documentIds && d != e
        ensures Words(t, d) != Words(t, e)
      {
        assert Words(t, d) == Words(s, d) && Words(t, e) == Words(s, e);
        if d < e {
          assert !LaterDuplicate(s, e);
        } else {
          assert !LaterDuplicate(s, d);
        }
      }
    }
  }

  /** A second run removes nothing. */
  lemma RemoveDuplicatesIdempotent(s: Server)
    requires Valid(s)
    ensures RemoveDuplicates(s).Ok? ==> RemoveDuplicates(RemoveDuplicates(s).value) == RemoveDuplicates(s)
  {
    if RemoveDuplicates(s).Ok? {
      var t := RemoveDuplicates(s).value;
      RemoveDuplicatesEffect(s);
      RemoveDuplicatesDistinct(s);
      assert forall d :: d in t.documentIds ==> d in t.idToDocumentFreqs;
      RemovesLaterDuplicates(t);
      assert forall d :: d in t.documentIds ==> !LaterDuplicate(t, d);
      assert LaterDuplicates(t) == {};
      assert IdOrder.Sorted(LaterDuplicates(t)) == [];
    }
  }
}

=== FILE: id_order.dfy ===
/** Ascending enumeration of a set of ids: the order in which a
    `std::set<int>` or the keys of a `std::map<int, ...>` are visited. */
module IdOrder {

  predicate IsMin(m: int, s: set<int>)
  {
    m in s && forall x :: x in s ==> m <= x
  }

  lemma MinExists(s: set<int>)
    requires s != {}
    ensures exists m :: IsMin(m, s)
  {
    assert (forall y :: y !in s) ==> s == {};
    var y :| y in s;
    var rest := s - {y};
    if rest == {} {
      forall x | x in s ensures y <= x {
        assert x == y || x in rest;
      }
      assert IsMin(y, s);
    } else {
      MinExists(rest);
      var m :| IsMin(m, rest);
      var least := if y < m then y else m;
      forall x | x in s ensures least <= x {
        assert x == y || x in rest;
      }
      assert IsMin(least, s);
    }
  }

  function Min(s: set<int>): (m: int)
    requires s != {}
    ensures IsMin(m, s)
  {
    MinExists(s);
    var m :| IsMin(m, s); m
  }

  predicate Ascending(s: seq<int>)
  {
    forall i, j :: 0 <= i < j < |s| ==> s[i] < s[j]
  }

  /** The elements of `s`, smallest first. */
  function Sorted(s: set<int>): (r: seq<int>)
    ensures Ascending(r)
    ensures forall x :: x in r <==> x in s
  {
    if s == {} then []
    else
      var m := Min(s);
      var tail := Sorted(s - {m});
      assert forall x :: x in tail ==> m < x;
      [m] + tail
  }
}

=== FILE: lexicographic.dfy ===
/** The order `operator<` gives `std::string_view`: lexicographic by
    character code, a proper prefix sorting first. `std::sort` followed by
    `std::unique` on words is modelled by `SortDedupe`. */
module Lexicographic {

  predicate Less(a: string, b: string)
  {
    if a == [] then b != []
    else if b == [] then false
    else if a[0] != b[0] then a[0] < b[0]
    else Less(a[1..], b[1..])
  }

  lemma Irreflexive(a: string)
    ensures !Less(a, a)
  {
  }

  lemma Transitive(a: string, b: string, c: string)
    requires Less(a, b) && Less(b, c)
    ensures Less(a, c)
  {
  }

  lemma Total(a: string, b: string)
    requires a != b
    ensures Less(a, b) || Less(b, a)
  {
    if a != [] && b != [] && a[0] == b[0] {
      assert a == [a[0]] + a[1..] && b == [b[0]] + b[1..];
      Total(a[1..], b[1..]);
    }
  }

  lemma Asymmetric(a: string, b: string)
    requires Less(a, b)
    ensures !Less(b, a)
  {
    if Less(b, a) {
      Transitive(a, b, a);
      Irreflexive(a);
    }
  }

  /** Sorted by `Less` with no two equal elements. */
  predicate StrictlySorted(s: seq<string>)
  {
    forall i, j :: 0 <= i < j < |s| ==> Less(s[i], s[j])
  }

  /** Inserts `x` at its place in `s`, unless it is there already. */
  function Insert(x: string, s: seq<string>): (r: seq<string>)
    requires StrictlySorted(s)
    ensures StrictlySorted(r)
    ensures forall y :: y in r <==> y == x || y in s
  {
    if s == [] then [x]
    else if x == s[0] then s
    else if Less(x, s[0]) then
      assert forall j :: 0 <= j < |s| ==> Less(x, s[j]) by {
        forall j | 0 <= j < |s| ensures Less(x, s[j]) {
          if j > 0 { Transitive(x, s[0], s[j]); }
        }
      }
      [x] + s
    else
      Total(x, s[0]);
      var tail := Insert(x, s[1..]);
      assert forall y :: y in tail ==> Less(s[0], y);
      [s[0]] + tail
  }

  /** What `sort` then `unique` then `erase` leaves of `s`. */
  function SortDedupe(s: seq<string>): (r: seq<string>)
    ensures StrictlySorted(r)
    ensures forall y :: y in r <==> y in s
  {
    if s == [] then []
    else
      var init := SortDedupe(s[..|s| - 1]);
      assert forall y :: y in s <==> y in s[..|s| - 1] || y == s[|s| - 1] by {
        assert s == s[..|s| - 1] + [s[|s| - 1]];
      }
      Insert(s[|s| - 1], init)
  }

  /** A strictly sorted sequence is determined by its elements. */
  lemma {:induction false} SortedUnique(a: seq<string>, b: seq<string>)
    requires StrictlySorted(a) && StrictlySorted(b)
    requires forall y :: y in a <==> y in b
    ensures a == b
  {
    assert (|a| > 0 ==> a[0] in b) && (|b| > 0 ==> b[0] in a);
    if a != [] && b != [] {
      assert a[0] in b && b[0] in a;
      if a[0] != b[0] {
        var i :| 0 <= i < |b| && b[i] == a[0];
        var j :| 0 <= j < |a| && a[j] == b[0];
        assert Less(b[0], a[0]) && Less(a[0], b[0]);
        Asymmetric(a[0], b[0]);
      }
      forall y ensures y in a[1..] <==> y in b[1..] {
        if y in a[1..] {
          var k :| 1 <= k < |a| && a[k] == y;
          Irreflexive(a[0]);
        }
        if y in b[1..] {
          var k :| 1 <= k < |b| && b[k] == y;
          Irreflexive(b[0]);
        }
        assert y in a <==> y == a[0] || y in a[1..];
        assert y in b <==> y == b[0] || y in b[1..];
      }
      SortedUnique(a[1..], b[1..]);
      assert a == [a[0]] + a[1..] && b == [b[0]] + b[1..];
    }
  }
}

=== FILE: matching.dfy ===
/** `MatchDocument`: which plus words of a query a document holds, or
    none when it holds a minus word; with the document's status. */
module Matching {
  import opened Results
  import opened Documents
  import opened SearchServer
  import opened QueryParser
  import opened Lexicographic
  import opened Ranker
  import opened StringProcessing

  /** The matched words and the document's status. */
  datatype Match = Match(words: seq<string>, status: Status)

  /** The sequential `any_of` over the minus words: it stops at the first
      word whose bucket holds the document, and `map::at` throws on an
      unindexed word reached before that. */
  function MinusHit(s: Server, minus: seq<string>, id: int): (r: Result<bool>)
    ensures AllIndexed(s, minus) ==> r == Ok(Mentions(s, minus, id))
    ensures r == Ok(true) ==> Mentions(s, minus, id)
    ensures r == Ok(false) ==> AllIndexed(s, minus) && !Mentions(s, minus, id)
    ensures r.Err? ==> r.error == OutOfRange && !AllIndexed(s, minus)
  {
    if minus == [] then Ok(false)
    else
      var w := minus[0];
      var fwd := s.wordToDocumentFreqs;
      MentionsCons(s, minus, id);
      if w !in fwd then Err(OutOfRange)
      else if id in fwd[w] then Ok(true)
      else
        AllIndexedCons(s, minus);
        MinusHit(s, minus[1..], id)
  }

  /** The scan reaches the `k`-th minus word (every earlier one is
      indexed) and that word's bucket holds the document. */
  predicate HitsAt(s: Server, minus: seq<string>, id: int, k: int)
    requires 0 <= k < |minus|
  {
    AllIndexed(s, minus[..k]) && minus[k] in s.wordToDocumentFreqs && id in s.wordToDocumentFreqs[minus[k]]
  }

  /** The scan reaches the `k`-th minus word without a hit, and that word
      is not indexed, so `map::at` throws there. */
  predicate ThrowsAt(s: Server, minus: seq<string>, id: int, k: int)
    requires 0 <= k < |minus|
  {
    AllIndexed(s, minus[..k]) && !Mentions(s, minus[..k], id) && minus[k] !in s.wordToDocumentFreqs
  }

  /** The sequential `any_of` is decided by the first minus word that is
      unindexed or holds the document: a hit before any unindexed word
      gives true, an unindexed word before any hit throws. */
  lemma {:induction false} MinusHitFirst(s: Server, minus: seq<string>, id: int)
    ensures MinusHit(s, minus, id) == Ok(true) <==> exists k :: 0 <= k < |minus| && HitsAt(s, minus, id, k)
    ensures MinusHit(s, minus, id).Err? <==> exists k :: 0 <= k < |minus| && ThrowsAt(s, minus, id, k)
    decreases |minus|
  {
    if minus != [] {
      var w := minus[0];
      var fwd := s.wordToDocumentFreqs;
      assert minus[..0] == [];
      assert AllIndexed(s, []) && !Mentions(s, [], id);
      if w !in fwd {
        assert ThrowsAt(s, minus, id, 0);
        forall k | 0 < k < |minus| ensures !HitsAt(s, minus, id, k) {
          assert minus[..k][0] == w;
        }
      } else if id in fwd[w] {
        assert HitsAt(s, minus, id, 0);
        forall k | 0 < k < |minus| ensures !ThrowsAt(s, minus, id, k) {
          assert w in minus[..k];
        }
      } else {
        MinusHitFirst(s, minus[1..], id);
        assert !HitsAt(s, minus, id, 0) && !ThrowsAt(s, minus, id, 0);
        forall k | 0 <= k < |minus| - 1
          ensures HitsAt(s, minus, id, k + 1) <==> HitsAt(s, minus[1..], id, k)
          ensures ThrowsAt(s, minus, id, k + 1) <==> ThrowsAt(s, minus[1..], id, k)
        {
          ShiftPrefix(s, minus, id, k);
        }
        if k :| 0 <= k < |minus| && HitsAt(s, minus, id, k) {
          assert HitsAt(s, minus[1..], id, k - 1);
        }
        if k :| 0 <= k < |minus| && ThrowsAt(s, minus, id, k) {
          assert ThrowsAt(s, minus[1..], id, k - 1);
        }
      }
    }
  }

  /** Past an indexed first word that misses, a prefix of the list is that
      word followed by a prefix of the tail. */
  lemma ShiftPrefix(s: Server, minus: seq<string>, id: int, k: nat)
    requires k < |minus| - 1
    requires minus[0] in s.wordToDocumentFreqs && id !in s.wordToDocumentFreqs[minus[0]]
    ensures AllIndexed(s, minus[..k + 1]) <==> AllIndexed(s, minus[1..][..k])
    ensures Mentions(s, minus[..k + 1], id) <==> Mentions(s, minus[1..][..k], id)
    ensures minus[k + 1] == minus[1..][k]
  {
    var p := minus[..k + 1];
    assert p[0] == minus[0] && p[1..] == minus[1..][..k];
    AllIndexedCons(s, p);
    MentionsCons(s, p, id);
  }

  /** The plus words whose bucket holds the document, in query order. */
  function Matched(s: Server, plus: seq<string>, id: int): (r: seq<string>)
    ensures forall w :: w in r <==> w in plus && w in s.wordToDocumentFreqs && id in s.wordToDocumentFreqs[w]
    ensures StrictlySorted(plus) ==> StrictlySorted(r)
  {
    if plus == [] then []
    else
      var w := plus[0];
      var fwd := s.wordToDocumentFreqs;
      var rest := Matched(s, plus[1..], id);
      assert forall v :: v in plus <==> v == w || v in plus[1..] by {
        assert plus == [w] + plus[1..];
      }
      if w in fwd && id in fwd[w] then
        assert StrictlySorted(plus) ==> forall v :: v in rest ==> Less(w, v) by {
          if StrictlySorted(plus) {
            forall v | v in rest ensures Less(w, v) {
              var k :| 0 <= k < |plus[1..]| && plus[1..][k] == v;
              assert plus[k + 1] == v;
            }
          }
        }
        [w] + rest
      else rest
  }

  /** Sequential `MatchDocument`: parse (sorted); a minus word holding the
      document empties the match; `documents_.at` throws for an unknown
      id. */
  function MatchDocument(s: Server, raw: string, id: int): (r: Result<Match>)
    ensures ParseQuery(s.stopWords, raw, true).Err? ==> r == Err(InvalidArgument(InvalidQueryWord))
    ensures ParseQuery(s.stopWords, raw, true).Ok? && id !in s.documents ==> r == Err(OutOfRange)
    ensures ParseQuery(s.stopWords, raw, true).Ok? ==>
      var q := ParseQuery(s.stopWords, raw, true).value;
      && (r.Ok? <==> id in s.documents && MinusHit(s, q.minus, id).Ok?)
      && (AllIndexed(s, q.minus) && id in s.documents ==> r.Ok?)
      && (MinusHit(s, q.minus, id).Err? ==> r == Err(OutOfRange))
    ensures r.Ok? ==>
      var q := ParseQuery(s.stopWords, raw, true).value;
      var tokens := SplitIntoWords(raw);
      && id in s.documents
      && r.value.status == s.documents[id].status
      && StrictlySorted(r.value.words)
      && (Mentions(s, q.minus, id) ==> r.value.words == [])
      && (forall w :: w in r.value.words <==>
            IsPlusWord(s.stopWords, tokens, w) && w in s.wordToDocumentFreqs && id in s.wordToDocumentFreqs[w]
            && !Mentions(s, q.minus, id))
  {
    var q :- ParseQuery(s.stopWords, raw, true);
    var hit :- MinusHit(s, q.minus, id);
    if id !in s.documents then Err(OutOfRange)
    else if hit then Ok(Match([], s.documents[id].status))
    else Ok(Match(Matched(s, q.plus, id), s.documents[id].status))
  }

  /** Parallel `MatchDocument`: the query is parsed unsorted; `any_of(par)`
      and `copy_if(par)` read every bucket with `map::at` inside their
      element functions, so an unindexed minus word (or, without a minus
      hit, plus word) terminates; the matches are sorted and
      de-duplicated afterwards. */
  function MatchDocumentParallel(s: Server, raw: string, id: int): (r: Result<Match>)
    ensures ParseQuery(s.stopWords, raw, false).Err? ==> r == Err(InvalidArgument(InvalidQueryWord))
    ensures ParseQuery(s.stopWords, raw, false).Ok? ==>
      var q := ParseQuery(s.stopWords, raw, false).value;
      && (r == Err(Terminated) <==>
            !AllIndexed(s, q.minus) || (!Mentions(s, q.minus, id) && !AllIndexed(s, q.plus)))
      && (r.Ok? <==>
            AllIndexed(s, q.minus) && (Mentions(s, q.minus, id) || AllIndexed(s, q.plus)) && id in s.documents)
      && (r.Err? && r.error != Terminated ==> r.error == OutOfRange && id !in s.documents)
    ensures r.Ok? ==>
      var q := ParseQuery(s.stopWords, raw, false).value;
      && id in s.documents
      && r.value.status == s.documents[id].status
      && StrictlySorted(r.value.words)
      && (Mentions(s, q.minus, id) ==> r.value.words == [])
      && (forall w :: w in r.value.words <==>
            w in q.plus && w in s.wordToDocumentFreqs && id in s.wordToDocumentFreqs[w] && !Mentions(s, q.minus, id))
  {
    var q :- ParseQuery(s.stopWords, raw, false);
    if !AllIndexed(s, q.minus) then Err(Terminated)
    else if Mentions(s, q.minus, id) then
      if id !in s.documents then Err(OutOfRange) else Ok(Match([], s.documents[id].status))
    else if !AllIndexed(s, q.plus) then Err(Terminated)
    else if id !in s.documents then Err(OutOfRange)
    else Ok(Match(SortDedupe(Matched(s, q.plus, id)), s.documents[id].status))
  }

  /** `MatchDocument(policy, raw_query, id)`. */
  function MatchDocumentWith(policy: Policy, s: Server, raw: string, id: int): (r: Result<Match>)
    ensures policy == Sequential ==> r == MatchDocument(s, raw, id)
    ensures policy == Parallel ==> r == MatchDocumentParallel(s, raw, id)
    ensures r.Ok? ==> r == MatchDocument(s, raw, id)
  {
    MatchPoliciesAgree(s, raw, id);
    match policy
    case Sequential => MatchDocument(s, raw, id)
    case Parallel => MatchDocumentParallel(s, raw, id)
  }

  /** Two word lists with the same members mention and index alike. */
  lemma SameWords(s: Server, a: seq<string>, b: seq<string>, id: int)
    requires forall w :: w in a <==> w in b
    ensures Mentions(s, a, id) <==> Mentions(s, b, id)
    ensures AllIndexed(s, a) <==> AllIndexed(s, b)
  {
    assert AllIndexed(s, a) <==> forall w :: w in a ==> w in s.wordToDocumentFreqs by {
      assert (forall w :: w in a ==> exists i :: 0 <= i < |a| && a[i] == w);
    }
    assert AllIndexed(s, b) <==> forall w :: w in b ==> w in s.wordToDocumentFreqs by {
      assert (forall w :: w in b ==> exists i :: 0 <= i < |b| && b[i] == w);
    }
  }

  /** When the parallel version returns, the sequential one returns the
      same match; and the sequential one can only fail where the parallel
      one fails too. */
  lemma MatchPoliciesAgree(s: Server, raw: string, id: int)
    ensures MatchDocumentParallel(s, raw, id).Ok? ==> MatchDocument(s, raw, id) == MatchDocumentParallel(s, raw, id)
    ensures MatchDocument(s, raw, id).Err? ==> MatchDocumentParallel(s, raw, id).Err?
  {
    var sorted := ParseQuery(s.stopWords, raw, true);
    var unsorted := ParseQuery(s.stopWords, raw, false);
    if sorted.Ok? {
      var qs := sorted.value;
      var qu := unsorted.value;
      SameWords(s, qs.minus, qu.minus, id);
      SameWords(s, qs.plus, qu.plus, id);
      var par := MatchDocumentParallel(s, raw, id);
      var sq := MatchDocument(s, raw, id);
      if par.Ok? {
        assert sq.Ok?;
        SortedUnique(sq.value.words, par.value.words);
      }
    }
  }
}

=== FILE: query_parser.dfy ===
/** The query language of `SearchServer`: space-separated words, a leading
    `-` marking a minus word; stop words are dropped; words are sorted and
    de-duplicated unless the caller asks otherwise. */
module QueryParser {
  import opened Results
  import opened StringProcessing
  import opened Lexicographic
  import SearchServer

  /** One parsed query token. */
  datatype QueryWord = QueryWord(data: string, isMinus: bool, isStop: bool)

  datatype Query = Query(plus: seq<string>, minus: seq<string>)

  /** A token `ParseQueryWord` accepts: non-empty, not `-` alone, not
      starting with `--`, free of control characters. */
  predicate AcceptedToken(t: string)
  {
    && t != []
    && !(|t| >= 2 && t[0] == '-' && t[1] == '-')
    && t != "-"
    && SearchServer.IsValidWord(t)
  }

  /** `ParseQueryWord`: an empty token and a malformed one throw
      `invalid_argument`; a leading `-` is stripped and marks a minus
      word; the stop-word flag is taken after stripping. */
  function ParseQueryWord(stopWords: set<string>, text: string): (r: Result<QueryWord>)
    ensures r.Ok? <==> AcceptedToken(text)
    ensures text == [] ==> r == Err(InvalidArgument(EmptyQueryWord))
    ensures text != [] && r.Err? ==> r.error == InvalidArgument(InvalidQueryWord)
    ensures r.Ok? ==> r.value.isMinus == (text[0] == '-')
    ensures r.Ok? ==> text == (if r.value.isMinus then "-" else "") + r.value.data
    ensures r.Ok? ==> r.value.data != [] && r.value.data[0] != '-'
    ensures r.Ok? ==> (r.value.isStop <==> r.value.data in stopWords)
  {
    if text == [] then Err(InvalidArgument(EmptyQueryWord))
    // `text[1]` is only read when the first test holds, which needs a
    // second character; a lone `-` fails the next test anyway.
    else if (|text| >= 2 && text[0] == '-' && text[1] == '-') || text == "-" || !SearchServer.IsValidWord(text) then
      Err(InvalidArgument(InvalidQueryWord))
    else if text[0] == '-' then
      var data := text[1..];
      assert text == "-" + data;
      Ok(QueryWord(data, true, data in stopWords))
    else
      Ok(QueryWord(text, false, text in stopWords))
  }

  /** `w` reaches the plus words: some token is `w` itself, `w` has no
      leading `-` and is not a stop word. */
  predicate IsPlusWord(stopWords: set<string>, tokens: seq<string>, w: string)
  {
    w in tokens && w != [] && w[0] != '-' && w !in stopWords
  }

  /** `w` reaches the minus words: some token is `-w` and `w` is not a
      stop word. */
  predicate IsMinusWord(stopWords: set<string>, tokens: seq<string>, w: string)
  {
    "-" + w in tokens && w !in stopWords
  }

  /** The loop of `ParseQuery` over the tokens: the first rejected token
      throws; the others are appended, in order, to the plus or minus
      words unless they are stop words. */
  function ParseWords(stopWords: set<string>, tokens: seq<string>): (r: Result<Query>)
    ensures r.Ok? <==> forall i :: 0 <= i < |tokens| ==> AcceptedToken(tokens[i])
    ensures r.Ok? ==> forall w :: w in r.value.plus <==> IsPlusWord(stopWords, tokens, w)
    ensures r.Ok? ==> forall w :: w in r.value.minus <==> IsMinusWord(stopWords, tokens, w)
    ensures r.Err? ==> r.error.InvalidArgument?
    ensures r.Err? && (forall i :: 0 <= i < |tokens| ==> tokens[i] != []) ==>
      r.error == InvalidArgument(InvalidQueryWord)
  {
    if tokens == [] then Ok(Query([], []))
    else
      TokensCons(tokens);
      var qw :- ParseQueryWord(stopWords, tokens[0]);
      var rest :- ParseWords(stopWords, tokens[1..]);
      PushWord(stopWords, tokens, qw, rest);
      Ok(Push(qw, rest))
  }

  /** One iteration of that loop: a stop word is dropped, a minus word
      joins the minus words and any other word the plus words. */
  function Push(qw: QueryWord, rest: Query): Query
  {
    if qw.isStop then rest
    else if qw.isMinus then Query(rest.plus, [qw.data] + rest.minus)
    else Query([qw.data] + rest.plus, rest.minus)
  }

  lemma TokensCons(tokens: seq<string>)
    requires tokens != []
    ensures (forall i :: 0 <= i < |tokens| ==> AcceptedToken(tokens[i])) <==>
      AcceptedToken(tokens[0]) && forall i :: 0 <= i < |tokens[1..]| ==> AcceptedToken(tokens[1..][i])
    ensures (forall i :: 0 <= i < |tokens| ==> tokens[i] != []) ==> forall i :: 0 <= i < |tokens[1..]| ==> tokens[1..][i] != []
  {
    assert forall i :: 0 <= i < |tokens[1..]| ==> tokens[1..][i] == tokens[i + 1];
  }

  /** Pushing the head token's word onto the tail's query yields the whole
      token list's plus and minus words. */
  lemma PushWord(stopWords: set<string>, tokens: seq<string>, qw: QueryWord, rest: Query)
    requires tokens != [] && ParseQueryWord(stopWords, tokens[0]) == Ok(qw)
    requires forall w :: w in rest.plus <==> IsPlusWord(stopWords, tokens[1..], w)
    requires forall w :: w in rest.minus <==> IsMinusWord(stopWords, tokens[1..], w)
    ensures forall w :: w in Push(qw, rest).plus <==> IsPlusWord(stopWords, tokens, w)
    ensures forall w :: w in Push(qw, rest).minus <==> IsMinusWord(stopWords, tokens, w)
  {
    assert forall w :: w in tokens <==> w == tokens[0] || w in tokens[1..] by {
      assert tokens == [tokens[0]] + tokens[1..];
    }
    assert forall w :: "-" + w == tokens[0] <==> qw.isMinus && w == qw.data by {
      forall w ensures "-" + w == tokens[0] ==> qw.isMinus && w == qw.data {
        if "-" + w == tokens[0] {
          assert tokens[0][0] == '-';
          assert w == tokens[0][1..];
        }
      }
    }
  }

  /** `ParseQuery(text, sort_words)`. */
  function ParseQuery(stopWords: set<string>, text: string, sortWords: bool): (r: Result<Query>)
    ensures r.Ok? <==> forall t :: t in SplitIntoWords(text) ==> AcceptedToken(t)
    ensures r.Err? ==> r.error == InvalidArgument(InvalidQueryWord)
    ensures r.Ok? ==> forall w :: w in r.value.plus <==> IsPlusWord(stopWords, SplitIntoWords(text), w)
    ensures r.Ok? ==> forall w :: w in r.value.minus <==> IsMinusWord(stopWords, SplitIntoWords(text), w)
    ensures r.Ok? && sortWords ==> StrictlySorted(r.value.plus) && StrictlySorted(r.value.minus)
  {
    var tokens := SplitIntoWords(text);
    assert forall i :: 0 <= i < |tokens| ==> tokens[i] != [];
    var q :- ParseWords(stopWords, tokens);
    if sortWords then Ok(Query(SortDedupe(q.plus), SortDedupe(q.minus))) else Ok(q)
  }

  /** The sorted query depends only on which words the text holds: two
      texts with the same plus and minus words, in any order and with any
      repetitions, parse to the same query. */
  lemma ParseQueryCanonical(stopWords: set<string>, text1: string, text2: string)
    requires ParseQuery(stopWords, text1, true).Ok? && ParseQuery(stopWords, text2, true).Ok?
    requires forall w :: IsPlusWord(stopWords, SplitIntoWords(text1), w) <==> IsPlusWord(stopWords, SplitIntoWords(text2), w)
    requires forall w :: IsMinusWord(stopWords, SplitIntoWords(text1), w) <==> IsMinusWord(stopWords, SplitIntoWords(text2), w)
    ensures ParseQuery(stopWords, text1, true) == ParseQuery(stopWords, text2, true)
  {
    var q1 := ParseQuery(stopWords, text1, true).value;
    var q2 := ParseQuery(stopWords, text2, true).value;
    SortedUnique(q1.plus, q2.plus);
    SortedUnique(q1.minus, q2.minus);
  }
}

=== FILE: ranker.dfy ===
/** TF-IDF ranking: `FindAllDocuments` in its sequential form (ordinary
    maps) and its parallel form (a `ConcurrentMap` with 1000 buckets),
    then the `FindTopDocuments` ordering and cut-off. */
module Ranker {
  import opened Results
  import opened Documents
  import opened SearchServer
  import opened QueryParser
  import IdOrder
  import ConcurrentMaps

  const MAX_RESULT_DOCUMENT_COUNT: nat := 5
  const EPSILON: real := 0.000001
  /** The bucket count of the parallel accumulator. */
  const RELEVANCE_BUCKETS: nat := 1000

  /** `ComputeWordInverseDocumentFreq` as a function of the document count
      and the size of the word's bucket; the logarithm itself is not part
      of this model. */
  type Idf = (nat, nat) -> real

  /** document id -> accumulated relevance */
  type Relevances = map<int, real>

  // -----------------------------------------------------------------------
  // Reference definitions

  /** A word's weight in a document: its term frequency times its inverse
      document frequency. */
  function Weight(tf: real, idfw: real): real
  {
    tf * idfw
  }

  /** What one plus word adds to one document: tf * idf, or nothing when the
      word is not indexed or the document does not hold it. */
  function Contribution(s: Server, idf: Idf, w: string, id: int): real
  {
    var fwd := s.wordToDocumentFreqs;
    if w in fwd && id in fwd[w] then Weight(fwd[w][id], WordIdf(s, idf, w)) else 0.0
  }

  /** The relevance of a document: the contributions of the plus words. */
  function Relevance(s: Server, idf: Idf, plus: seq<string>, id: int): real
  {
    if plus == [] then 0.0 else Contribution(s, idf, plus[0], id) + Relevance(s, idf, plus[1..], id)
  }

  /** Some word of the list is indexed for the document. */
  predicate Mentions(s: Server, words: seq<string>, id: int)
  {
    exists w :: w in words && w in s.wordToDocumentFreqs && id in s.wordToDocumentFreqs[w]
  }

  /** The document is stored and the caller's filter accepts it. */
  predicate Passes(s: Server, pred: DocumentPredicate, id: int)
  {
    id in s.documents && pred(id, s.documents[id].status, s.documents[id].rating)
  }

  /** Every query word is indexed: the parallel version reads each bucket
      with `map::at`. */
  predicate AllIndexed(s: Server, words: seq<string>)
  {
    forall i :: 0 <= i < |words| ==> words[i] in s.wordToDocumentFreqs
  }

  /** A non-empty word list is indexed when its head and its tail are. */
  lemma AllIndexedCons(s: Server, words: seq<string>)
    requires words != []
    ensures AllIndexed(s, words) <==> words[0] in s.wordToDocumentFreqs && AllIndexed(s, words[1..])
  {
    assert forall i :: 0 <= i < |words[1..]| ==> words[1..][i] == words[i + 1];
  }

  /** The ids of a bucket in `std::map` order. */
  function BucketIds(s: Server, w: string): (ids: seq<int>)
    requires PostingsStored(s) && w in s.wordToDocumentFreqs
    ensures IdOrder.Ascending(ids)
    ensures forall x :: x in ids <==> x in s.wordToDocumentFreqs[w]
    ensures forall i :: 0 <= i < |ids| ==> ids[i] in s.wordToDocumentFreqs[w] && ids[i] in s.documents
  {
    IdOrder.Sorted(s.wordToDocumentFreqs[w].Keys)
  }

  function WordIdf(s: Server, idf: Idf, w: string): real
    requires w in s.wordToDocumentFreqs
  {
    idf(|s.documents|, |s.wordToDocumentFreqs[w]|)
  }

  // -----------------------------------------------------------------------
  // Sequential FindAllDocuments

  /** The inner loop over one bucket: `document_to_relevance[id] += tf * idf`
      for every id the filter accepts. */
  function AddBucket(s: Server, pred: DocumentPredicate, rel: Relevances, bucket: Postings,
                     ids: seq<int>, idfw: real): Relevances
    requires forall i :: 0 <= i < |ids| ==> ids[i] in bucket && ids[i] in s.documents
    decreases |ids|
  {
    if ids == [] then rel
    else AddBucket(s, pred, Credit(s, pred, rel, bucket, ids[0], idfw), bucket, ids[1..], idfw)
  }

  /** One pass of the inner loop. */
  function Credit(s: Server, pred: DocumentPredicate, rel: Relevances, bucket: Postings, id: int, idfw: real): Relevances
    requires id in bucket && id in s.documents
  {
    var data := s.documents[id];
    if pred(id, data.status, data.rating) then rel[id := Get(rel, id) + Weight(bucket[id], idfw)] else rel
  }

  lemma {:induction false} AddBucketValue(s: Server, pred: DocumentPredicate, rel: Relevances, bucket: Postings,
                                          ids: seq<int>, idfw: real, x: int)
    requires forall i :: 0 <= i < |ids| ==> ids[i] in bucket && ids[i] in s.documents
    requires IdOrder.Ascending(ids)
    ensures var r := AddBucket(s, pred, rel, bucket, ids, idfw);
      && (x in r <==> x in rel || (x in ids && Passes(s, pred, x)))
      && Get(r, x) == Get(rel, x) + (if x in ids && Passes(s, pred, x) then Weight(bucket[x], idfw) else 0.0)
    decreases |ids|
  {
    if ids != [] {
      var id := ids[0];
      var rel' := Credit(s, pred, rel, bucket, id, idfw);
      AddBucketValue(s, pred, rel', bucket, ids[1..], idfw, x);
      assert x in ids <==> x == id || x in ids[1..] by {
        assert ids == [id] + ids[1..];
      }
      assert x !in ids[1..] || x != id by {
        if x in ids[1..] {
          var k :| 0 <= k < |ids[1..]| && ids[1..][k] == x;
          assert ids[k + 1] == x && ids[0] < ids[k + 1];
        }
      }
      assert x != id ==> (x in rel' <==> x in rel) && Get(rel', x) == Get(rel, x);
      assert x == id ==>
        && (x in rel' <==> x in rel || Passes(s, pred, x))
        && Get(rel', x) == Get(rel, x) + (if Passes(s, pred, x) then Weight(bucket[x], idfw) else 0.0);
    }
  }

  /** The outer loop over the plus words; words without a bucket are
      skipped. */
  function PlusPass(s: Server, idf: Idf, pred: DocumentPredicate, rel: Relevances, plus: seq<string>): Relevances
    requires PostingsStored(s)
    decreases |plus|
  {
    if plus == [] then rel
    else PlusPass(s, idf, pred, PlusWord(s, idf, pred, rel, plus[0]), plus[1..])
  }

  /** One pass of the outer loop. */
  function PlusWord(s: Server, idf: Idf, pred: DocumentPredicate, rel: Relevances, w: string): Relevances
    requires PostingsStored(s)
  {
    var fwd := s.wordToDocumentFreqs;
    if w in fwd then AddBucket(s, pred, rel, fwd[w], BucketIds(s, w), WordIdf(s, idf, w)) else rel
  }

  lemma {:induction false} PlusWordValue(s: Server, idf: Idf, pred: DocumentPredicate, rel: Relevances, w: string, x: int)
    requires PostingsStored(s)
    ensures var r := PlusWord(s, idf, pred, rel, w);
      var hit := w in s.wordToDocumentFreqs && x in s.wordToDocumentFreqs[w];
      && (x in r <==> x in rel || (Passes(s, pred, x) && hit))
      && Get(r, x) == Get(rel, x) + (if Passes(s, pred, x) then Contribution(s, idf, w, x) else 0.0)
  {
    var fwd := s.wordToDocumentFreqs;
    if w in fwd {
      var ids := BucketIds(s, w);
      var idfw := WordIdf(s, idf, w);
      var r := AddBucket(s, pred, rel, fwd[w], ids, idfw);
      assert PlusWord(s, idf, pred, rel, w) == r;
      AddBucketValue(s, pred, rel, fwd[w], ids, idfw, x);
      assert x in ids <==> x in fwd[w];
      if x in fwd[w] && Passes(s, pred, x) {
        assert Get(r, x) == Get(rel, x) + Weight(fwd[w][x], idfw);
        assert Contribution(s, idf, w, x) == Weight(fwd[w][x], idfw);
      } else {
        assert Get(r, x) == Get(rel, x);
        assert x !in fwd[w] ==> Contribution(s, idf, w, x) == 0.0;
      }
    } else {
      assert Contribution(s, idf, w, x) == 0.0;
    }
  }

  lemma MentionsCons(s: Server, words: seq<string>, x: int)
    requires words != []
    ensures Mentions(s, words, x) <==>
      (words[0] in s.wordToDocumentFreqs && x in s.wordToDocumentFreqs[words[0]]) || Mentions(s, words[1..], x)
  {
    assert forall v :: v in words <==> v == words[0] || v in words[1..] by {
      assert words == [words[0]] + words[1..];
    }
  }

  /** Each accepted document mentioned by a plus word gains exactly its
      reference relevance. */
  lemma {:induction false} PlusPassValue(s: Server, idf: Idf, pred: DocumentPredicate, rel: Relevances,
                                         plus: seq<string>, x: int)
    requires PostingsStored(s)
    ensures var r := PlusPass(s, idf, pred, rel, plus);
      && (x in r <==> x in rel || (Passes(s, pred, x) && Mentions(s, plus, x)))
      && Get(r, x) == Get(rel, x) + (if Passes(s, pred, x) then Relevance(s, idf, plus, x) else 0.0)
    decreases |plus|
  {
    if plus != [] {
      var rel' := PlusWord(s, idf, pred, rel, plus[0]);
      PlusWordValue(s, idf, pred, rel, plus[0], x);
      PlusPassValue(s, idf, pred, rel', plus[1..], x);
      MentionsCons(s, plus, x);
    }
  }

  /** `document_to_relevance.erase(id)` for every id of a bucket. */
  function EraseIds(rel: Relevances, ids: seq<int>): (r: Relevances)
    ensures forall x :: x in r <==> x in rel && x !in ids
    ensures forall x :: x in r ==> r[x] == rel[x]
  {
    if ids == [] then rel
    else
      assert forall x :: x in ids <==> x == ids[0] || x in ids[1..] by {
        assert ids == [ids[0]] + ids[1..];
      }
      EraseIds(rel - {ids[0]}, ids[1..])
  }

  /** The loop over the minus words: drop every document they mention. */
  function MinusPass(s: Server, rel: Relevances, minus: seq<string>): (r: Relevances)
    requires PostingsStored(s)
    ensures forall x :: x in r <==> x in rel && !Mentions(s, minus, x)
    ensures forall x :: x in r ==> r[x] == rel[x]
  {
    if minus == [] then rel
    else
      var w := minus[0];
      var fwd := s.wordToDocumentFreqs;
      var rel' := if w in fwd then EraseIds(rel, BucketIds(s, w)) else rel;
      assert forall v :: v in minus <==> v == w || v in minus[1..] by {
        assert minus == [w] + minus[1..];
      }
      var r := MinusPass(s, rel', minus[1..]);
      assert forall x :: Mentions(s, minus, x) <==> (w in fwd && x in fwd[w]) || Mentions(s, minus[1..], x);
      r
  }

  /** The final loop: one `Document` per surviving id, in id order, with
      the stored rating. */
  function Emit(s: Server, rel: Relevances): (r: seq<Document>)
    requires forall x :: x in rel ==> x in s.documents
    ensures forall i, j :: 0 <= i < j < |r| ==> r[i].id < r[j].id
    ensures forall x :: Found(r, x) <==> x in rel
    ensures forall i :: 0 <= i < |r| ==>
      r[i].id in rel && r[i].relevance == rel[r[i].id] && r[i].rating == s.documents[r[i].id].rating
  {
    var ids := IdOrder.Sorted(rel.Keys);
    var r := seq(|ids|, i requires 0 <= i < |ids| => Document(ids[i], rel[ids[i]], s.documents[ids[i]].rating));
    assert forall x :: Found(r, x) <==> x in ids by {
      forall x ensures Found(r, x) <==> x in ids {
        if x in ids {
          var i :| 0 <= i < |ids| && ids[i] == x;
          assert r[i].id == x;
        }
      }
    }
    r
  }

  /** Some result carries this id. */
  predicate Found(docs: seq<Document>, id: int)
  {
    exists i :: 0 <= i < |docs| && docs[i].id == id
  }

  /** What both versions compute: the accumulator after the plus and minus
      passes. */
  function Accumulated(s: Server, idf: Idf, q: Query, pred: DocumentPredicate): (rel: Relevances)
    requires Valid(s)
    ensures forall x :: x in rel <==> Passes(s, pred, x) && Mentions(s, q.plus, x) && !Mentions(s, q.minus, x)
    ensures forall x :: x in rel ==> rel[x] == Relevance(s, idf, q.plus, x)
  {
    ValidPostingsStored(s);
    var plus := PlusPass(s, idf, pred, map[], q.plus);
    forall x ensures (x in plus <==> Passes(s, pred, x) && Mentions(s, q.plus, x))
                  && (x in plus ==> plus[x] == Relevance(s, idf, q.plus, x)) {
      PlusPassValue(s, idf, pred, map[], q.plus, x);
    }
    MinusPass(s, plus, q.minus)
  }

  /** Sequential `FindAllDocuments`: exactly the stored documents the filter
      accepts that some plus word and no minus word mentions, in id order,
      each with its TF-IDF relevance and stored rating. */
  function FindAllDocuments(s: Server, idf: Idf, q: Query, pred: DocumentPredicate): (r: seq<Document>)
    requires Valid(s)
    ensures forall i, j :: 0 <= i < j < |r| ==> r[i].id < r[j].id
    ensures forall x :: Found(r, x) <==> Passes(s, pred, x) && Mentions(s, q.plus, x) && !Mentions(s, q.minus, x)
    ensures forall i :: 0 <= i < |r| ==>
      && r[i].id in s.documents
      && r[i].relevance == Relevance(s, idf, q.plus, r[i].id)
      && r[i].rating == s.documents[r[i].id].rating
  {
    Emit(s, Accumulated(s, idf, q, pred))
  }

  // -----------------------------------------------------------------------
  // Parallel FindAllDocuments

  /** `document_to_relevance[id].ref_to_value += tf * idf` on the sharded
      map: `operator[]` inserts zero, then the write goes through the
      returned reference. */
  function ParCredit(s: Server, pred: DocumentPredicate, cm: ConcurrentMaps.ConcurrentMap<real>, bucket: Postings,
                     id: int, idfw: real): (r: ConcurrentMaps.ConcurrentMap<real>)
    requires ConcurrentMaps.Valid(cm) && id in bucket && id in s.documents
    ensures ConcurrentMaps.Valid(r) && |r.buckets| == |cm.buckets|
    ensures ConcurrentMaps.BuildOrdinaryMap(r) == Credit(s, pred, ConcurrentMaps.BuildOrdinaryMap(cm), bucket, id, idfw)
  {
    var data := s.documents[id];
    if pred(id, data.status, data.rating) then
      var (cm', v) := ConcurrentMaps.Access(cm, id, 0.0);
      var flat := ConcurrentMaps.BuildOrdinaryMap(cm);
      assert v == Get(flat, id);
      assert flat[id := v][id := v + Weight(bucket[id], idfw)] == flat[id := Get(flat, id) + Weight(bucket[id], idfw)];
      ConcurrentMaps.Store(cm', id, v + Weight(bucket[id], idfw))
    else cm
  }

  function ParAddBucket(s: Server, pred: DocumentPredicate, cm: ConcurrentMaps.ConcurrentMap<real>, bucket: Postings,
                        ids: seq<int>, idfw: real): (r: ConcurrentMaps.ConcurrentMap<real>)
    requires ConcurrentMaps.Valid(cm)
    requires forall i :: 0 <= i < |ids| ==> ids[i] in bucket && ids[i] in s.documents
    ensures ConcurrentMaps.Valid(r) && |r.buckets| == |cm.buckets|
    ensures ConcurrentMaps.BuildOrdinaryMap(r) == AddBucket(s, pred, ConcurrentMaps.BuildOrdinaryMap(cm), bucket, ids, idfw)
    decreases |ids|
  {
    if ids == [] then cm
    else ParAddBucket(s, pred, ParCredit(s, pred, cm, bucket, ids[0], idfw), bucket, ids[1..], idfw)
  }

  /** The `for_each(par, plus_words)` loop. Each word's bucket is read with
      `map::at` inside the element function, so an unindexed plus word
      terminates the program. */
  function ParPlusPass(s: Server, idf: Idf, pred: DocumentPredicate, cm: ConcurrentMaps.ConcurrentMap<real>,
                       plus: seq<string>): (r: Result<ConcurrentMaps.ConcurrentMap<real>>)
    requires PostingsStored(s) && ConcurrentMaps.Valid(cm)
    ensures r.Ok? <==> AllIndexed(s, plus)
    ensures r.Err? ==> r.error == Terminated
    ensures r.Ok? ==> ConcurrentMaps.Valid(r.value) && |r.value.buckets| == |cm.buckets|
    ensures r.Ok? ==> ConcurrentMaps.BuildOrdinaryMap(r.value) == PlusPass(s, idf, pred, ConcurrentMaps.BuildOrdinaryMap(cm), plus)
    decreases |plus|
  {
    if plus == [] then Ok(cm)
    else
      AllIndexedCons(s, plus);
      if plus[0] !in s.wordToDocumentFreqs then Err(Terminated)
      else ParPlusPass(s, idf, pred, ParPlusWord(s, idf, pred, cm, plus[0]), plus[1..])
  }

  /** The element function of that loop, for an indexed word. */
  function ParPlusWord(s: Server, idf: Idf, pred: DocumentPredicate, cm: ConcurrentMaps.ConcurrentMap<real>,
                       w: string): (r: ConcurrentMaps.ConcurrentMap<real>)
    requires PostingsStored(s) && ConcurrentMaps.Valid(cm) && w in s.wordToDocumentFreqs
    ensures ConcurrentMaps.Valid(r) && |r.buckets| == |cm.buckets|
    ensures ConcurrentMaps.BuildOrdinaryMap(r) == PlusWord(s, idf, pred, ConcurrentMaps.BuildOrdinaryMap(cm), w)
  {
    ParAddBucket(s, pred, cm, s.wordToDocumentFreqs[w], BucketIds(s, w), WordIdf(s, idf, w))
  }

  function ParEraseIds(cm: ConcurrentMaps.ConcurrentMap<real>, ids: seq<int>): (r: ConcurrentMaps.ConcurrentMap<real>)
    requires ConcurrentMaps.Valid(cm)
    ensures ConcurrentMaps.Valid(r) && |r.buckets| == |cm.buckets|
    ensures ConcurrentMaps.BuildOrdinaryMap(r) == EraseIds(ConcurrentMaps.BuildOrdinaryMap(cm), ids)
    decreases |ids|
  {
    if ids == [] then cm else ParEraseIds(ConcurrentMaps.Erase(cm, ids[0]), ids[1..])
  }

  /** The `for_each(par, minus_words)` loop, with the same `map::at`. */
  function ParMinusPass(s: Server, cm: ConcurrentMaps.ConcurrentMap<real>, minus: seq<string>)
    : (r: Result<ConcurrentMaps.ConcurrentMap<real>>)
    requires PostingsStored(s) && ConcurrentMaps.Valid(cm)
    ensures r.Ok? <==> AllIndexed(s, minus)
    ensures r.Err? ==> r.error == Terminated
    ensures r.Ok? ==> ConcurrentMaps.Valid(r.value)
    ensures r.Ok? ==> ConcurrentMaps.BuildOrdinaryMap(r.value) == MinusPass(s, ConcurrentMaps.BuildOrdinaryMap(cm), minus)
    decreases |minus|
  {
    if minus == [] then Ok(cm)
    else
      var w := minus[0];
      AllIndexedCons(s, minus);
      if w !in s.wordToDocumentFreqs then Err(Terminated)
      else ParMinusPass(s, ParEraseIds(cm, BucketIds(s, w)), minus[1..])
  }

  /** Parallel `FindAllDocuments`: terminates on an unindexed query word;
      otherwise it finds exactly what the sequential version finds. */
  function FindAllDocumentsParallel(s: Server, idf: Idf, q: Query, pred: DocumentPredicate): (r: Result<seq<Document>>)
    requires Valid(s)
    ensures r.Ok? <==> AllIndexed(s, q.plus) && AllIndexed(s, q.minus)
    ensures r.Err? ==> r.error == Terminated
    ensures r.Ok? ==> r.value == FindAllDocuments(s, idf, q, pred)
  {
    ValidPostingsStored(s);
    var cm0 := ConcurrentMaps.New(RELEVANCE_BUCKETS);
    var cm1 :- ParPlusPass(s, idf, pred, cm0, q.plus);
    var cm2 :- ParMinusPass(s, cm1, q.minus);
    var rel := ConcurrentMaps.BuildOrdinaryMap(cm2);
    assert rel == Accumulated(s, idf, q, pred);
    Ok(Emit(s, rel))
  }

  // -----------------------------------------------------------------------
  // FindTopDocuments

  function RealAbs(x: real): real
  {
    if x < 0.0 then -x else x
  }

  /** The comparator of `FindTopDocuments`: higher relevance first;
      relevances closer than `EPSILON` count as equal and the higher rating
      goes first. It is asymmetric, but closeness is not transitive, so it
      is not a strict weak order. */
  predicate Before(lhs: Document, rhs: Document)
  {
    if RealAbs(lhs.relevance - rhs.relevance) < EPSILON then lhs.rating > rhs.rating
    else lhs.relevance > rhs.relevance
  }

  lemma BeforeAsymmetric(a: Document, b: Document)
    requires Before(a, b)
    ensures !Before(b, a)
  {
    assert RealAbs(a.relevance - b.relevance) == RealAbs(b.relevance - a.relevance);
  }

  /** No neighbour pair is out of order: the order the insertion sort
      below produces. The comparator is not a strict weak order, so this
      is one order `std::sort` may produce, not one it promises. */
  predicate NoInversion(docs: seq<Document>)
  {
    forall i :: 0 <= i < |docs| - 1 ==> !Before(docs[i + 1], docs[i])
  }

  /** Insert before the first element `x` goes before. */
  function InsertDocument(x: Document, docs: seq<Document>): (r: seq<Document>)
    requires NoInversion(docs)
    ensures NoInversion(r)
    ensures multiset(r) == multiset(docs) + multiset{x}
    ensures r != [] && (r[0] == x || (docs != [] && r[0] == docs[0]))
  {
    if docs == [] then [x]
    else if Before(x, docs[0]) then
      BeforeAsymmetric(x, docs[0]);
      [x] + docs
    else
      var rest := InsertDocument(x, docs[1..]);
      assert docs == [docs[0]] + docs[1..];
      var r := [docs[0]] + rest;
      assert forall i :: 1 <= i < |r| - 1 ==> r[i] == rest[i - 1] && r[i + 1] == rest[i];
      r
  }

  /** `std::sort` with the comparator; ties keep no particular order in
      the C++ code, here they keep input order. */
  function SortDocuments(docs: seq<Document>): (r: seq<Document>)
    ensures NoInversion(r)
    ensures multiset(r) == multiset(docs)
  {
    if docs == [] then []
    else
      assert docs == [docs[0]] + docs[1..];
      InsertDocument(docs[0], SortDocuments(docs[1..]))
  }

  /** `resize(MAX_RESULT_DOCUMENT_COUNT)` when there are more results. */
  function Truncate(docs: seq<Document>): (r: seq<Document>)
    ensures |r| == if |docs| > MAX_RESULT_DOCUMENT_COUNT then MAX_RESULT_DOCUMENT_COUNT else |docs|
    ensures r == docs[..|r|]
  {
    if |docs| > MAX_RESULT_DOCUMENT_COUNT then docs[..MAX_RESULT_DOCUMENT_COUNT] else docs
  }

  /** `FindAllDocuments(policy, query, predicate)`. */
  function FindAllDocumentsWith(policy: Policy, s: Server, idf: Idf, q: Query, pred: DocumentPredicate)
    : (r: Result<seq<Document>>)
    requires Valid(s)
    ensures policy == Sequential ==> r == Ok(FindAllDocuments(s, idf, q, pred))
    ensures policy == Parallel ==> r == FindAllDocumentsParallel(s, idf, q, pred)
    ensures r.Ok? <==> policy == Sequential || (AllIndexed(s, q.plus) && AllIndexed(s, q.minus))
    ensures r.Ok? ==> r.value == FindAllDocuments(s, idf, q, pred)
    ensures r.Err? ==> r == Err(Terminated)
  {
    match policy
    case Sequential => Ok(FindAllDocuments(s, idf, q, pred))
    case Parallel => FindAllDocumentsParallel(s, idf, q, pred)
  }

  /** The documents `FindTopDocuments` chooses among: the sequential
      `FindAllDocuments` on the sorted query. */
  function Candidates(s: Server, idf: Idf, raw: string, pred: DocumentPredicate): (r: Result<seq<Document>>)
    requires Valid(s)
  {
    var q :- ParseQuery(s.stopWords, raw, true);
    Ok(FindAllDocuments(s, idf, q, pred))
  }

  /** `FindTopDocuments(policy, raw_query, predicate)`: parse (sorted), find,
      order by the comparator, keep the first five. A malformed query
      throws; under the parallel policy an unindexed query word
      terminates; otherwise both policies return the same documents: the
      first five (or fewer) of all the candidates arranged with no
      neighbours out of order, no two with the same id. */
  function FindTopDocuments(policy: Policy, s: Server, idf: Idf, raw: string, pred: DocumentPredicate)
    : (r: Result<seq<Document>>)
    requires Valid(s)
    ensures ParseQuery(s.stopWords, raw, true).Err? ==> r == Err(InvalidArgument(InvalidQueryWord))
    ensures policy == Sequential ==> (r.Ok? <==> Candidates(s, idf, raw, pred).Ok?)
    ensures policy == Parallel && ParseQuery(s.stopWords, raw, true).Ok? ==>
      var q := ParseQuery(s.stopWords, raw, true).value;
      (r.Ok? <==> AllIndexed(s, q.plus) && AllIndexed(s, q.minus))
    ensures r.Ok? ==>
      var all := Candidates(s, idf, raw, pred).value;
      && |r.value| == (if |all| > MAX_RESULT_DOCUMENT_COUNT then MAX_RESULT_DOCUMENT_COUNT else |all|)
      && multiset(r.value) <= multiset(all)
      && NoInversion(r.value)
      && OrderedPrefix(r.value, all)
  {
    var q :- ParseQuery(s.stopWords, raw, true);
    var matched :- FindAllDocumentsWith(policy, s, idf, q, pred);
    Ok(Top(matched))
  }

  /** Sort, then cut to `MAX_RESULT_DOCUMENT_COUNT`. */
  function Top(docs: seq<Document>): (r: seq<Document>)
    ensures |r| == if |docs| > MAX_RESULT_DOCUMENT_COUNT then MAX_RESULT_DOCUMENT_COUNT else |docs|
    ensures multiset(r) <= multiset(docs)
    ensures NoInversion(r)
    ensures OrderedPrefix(r, docs)
  {
    var sorted := SortDocuments(docs);
    var r := Truncate(sorted);
    PrefixKeepsOrder(sorted, |r|);
    assert |sorted| == |multiset(sorted)| == |docs|;
    r
  }

  /** `r` is the front of some arrangement of all of `docs` with no
      neighbours out of order: the documents kept are the first ones of a
      sorted candidate list, not any documents that happen to be ordered. */
  ghost predicate OrderedPrefix(r: seq<Document>, docs: seq<Document>)
  {
    exists sorted: seq<Document> ::
      && multiset(sorted) == multiset(docs)
      && NoInversion(sorted)
      && |r| <= |sorted|
      && r == sorted[..|r|]
  }

  /** Relevances that differ at all differ by at least `EPSILON`; then the
      comparator never mixes closeness with order. */
  predicate Separated(docs: seq<Document>)
  {
    forall i, j :: 0 <= i < |docs| && 0 <= j < |docs| && docs[i].relevance != docs[j].relevance ==>
      RealAbs(docs[i].relevance - docs[j].relevance) >= EPSILON
  }

  /** When relevances are separated, no dropped candidate is more relevant
      than a kept one: `Top` keeps the most relevant documents. */
  lemma {:induction false} TopKeepsHighest(docs: seq<Document>)
    requires Separated(docs)
    ensures forall i, j :: 0 <= i < |Top(docs)| && 0 <= j < |docs| && docs[j].relevance > Top(docs)[i].relevance ==>
      docs[j] in Top(docs)
  {
    var sorted := SortDocuments(docs);
    var r := Top(docs);
    assert r == sorted[..|r|];
    SeparatedPermutation(docs, sorted);
    NonIncreasing(sorted);
    forall i, j | 0 <= i < |r| && 0 <= j < |docs| && docs[j].relevance > r[i].relevance
      ensures docs[j] in r
    {
      assert docs[j] in multiset(sorted);
      var k :| 0 <= k < |sorted| && sorted[k] == docs[j];
      assert r[i] == sorted[i];
      assert k < |r|;
      assert r[k] == docs[j];
    }
  }

  /** Separation is a property of the elements, so it survives sorting. */
  lemma SeparatedPermutation(docs: seq<Document>, sorted: seq<Document>)
    requires Separated(docs) && multiset(sorted) == multiset(docs)
    ensures Separated(sorted)
  {
    forall i, j | 0 <= i < |sorted| && 0 <= j < |sorted| && sorted[i].relevance != sorted[j].relevance
      ensures RealAbs(sorted[i].relevance - sorted[j].relevance) >= EPSILON
    {
      assert sorted[i] in multiset(docs) && sorted[j] in multiset(docs);
      var a :| 0 <= a < |docs| && docs[a] == sorted[i];
      var b :| 0 <= b < |docs| && docs[b] == sorted[j];
    }
  }

  /** With separated relevances, neighbour order is relevance order along
      the whole list. */
  lemma {:induction false} NonIncreasing(sorted: seq<Document>)
    requires Separated(sorted) && NoInversion(sorted)
    ensures forall i, j :: 0 <= i <= j < |sorted| ==> sorted[j].relevance <= sorted[i].relevance
  {
    forall i, j | 0 <= i <= j < |sorted|
      ensures sorted[j].relevance <= sorted[i].relevance
    {
      NonIncreasingFrom(sorted, i, j);
    }
  }

  lemma {:induction false} NonIncreasingFrom(sorted: seq<Document>, i: nat, j: nat)
    requires Separated(sorted) && NoInversion(sorted)
    requires i <= j < |sorted|
    ensures sorted[j].relevance <= sorted[i].relevance
    decreases j - i
  {
    if i < j {
      NonIncreasingFrom(sorted, i, j - 1);
      assert !Before(sorted[j], sorted[j - 1]);
    }
  }

  lemma PrefixKeepsOrder(docs: seq<Document>, n: nat)
    requires n <= |docs| && NoInversion(docs)
    ensures NoInversion(docs[..n])
    ensures multiset(docs[..n]) <= multiset(docs)
  {
    assert docs == docs[..n] + docs[n..];
    assert multiset(docs) == multiset(docs[..n]) + multiset(docs[n..]);
  }

  /** Every top document is a candidate: stored, accepted by the filter,
      mentioned by a plus word and by no minus word, with its TF-IDF
      relevance; and no id comes twice. */
  lemma FindTopDocumentsFound(policy: Policy, s: Server, idf: Idf, raw: string, pred: DocumentPredicate)
    requires Valid(s)
    ensures FindTopDocuments(policy, s, idf, raw, pred).Ok? ==>
      && ParseQuery(s.stopWords, raw, true).Ok?
      && (forall i :: 0 <= i < |FindTopDocuments(policy, s, idf, raw, pred).value| ==>
            Qualifies(s, idf, ParseQuery(s.stopWords, raw, true).value, pred,
                      FindTopDocuments(policy, s, idf, raw, pred).value[i]))
    ensures FindTopDocuments(policy, s, idf, raw, pred).Ok? ==>
      forall i, j :: 0 <= i < j < |FindTopDocuments(policy, s, idf, raw, pred).value| ==>
        FindTopDocuments(policy, s, idf, raw, pred).value[i].id != FindTopDocuments(policy, s, idf, raw, pred).value[j].id
  {
    if FindTopDocuments(policy, s, idf, raw, pred).Ok? {
      FindTopIsTop(policy, s, idf, raw, pred);
      var q := ParseQuery(s.stopWords, raw, true).value;
      var all := FindAllDocuments(s, idf, q, pred);
      AllQualify(s, idf, q, pred);
      TopPreserves(all, d => Qualifies(s, idf, q, pred, d));
      TopDistinct(all);
    }
  }

  /** A document the ranking may return for query `q`: stored, accepted by
      the filter, mentioned by a plus word and by no minus word, with its
      TF-IDF relevance. */
  predicate Qualifies(s: Server, idf: Idf, q: Query, pred: DocumentPredicate, d: Document)
  {
    && Passes(s, pred, d.id)
    && Mentions(s, q.plus, d.id)
    && !Mentions(s, q.minus, d.id)
    && d.relevance == Relevance(s, idf, q.plus, d.id)
  }

  /** Every candidate qualifies. */
  lemma {:induction false} AllQualify(s: Server, idf: Idf, q: Query, pred: DocumentPredicate)
    requires Valid(s)
    ensures forall k :: 0 <= k < |FindAllDocuments(s, idf, q, pred)| ==>
      Qualifies(s, idf, q, pred, FindAllDocuments(s, idf, q, pred)[k])
  {
    var all := FindAllDocuments(s, idf, q, pred);
    forall k | 0 <= k < |all|
      ensures Qualifies(s, idf, q, pred, all[k])
    {
      assert Found(all, all[k].id);
    }
  }

  /** A property every candidate has, every top document has. */
  lemma {:induction false} TopPreserves(docs: seq<Document>, p: Document -> bool)
    requires forall k :: 0 <= k < |docs| ==> p(docs[k])
    ensures forall i :: 0 <= i < |Top(docs)| ==> p(Top(docs)[i])
  {
    TopMembers(docs);
    forall i | 0 <= i < |Top(docs)|
      ensures p(Top(docs)[i])
    {
      var k :| 0 <= k < |docs| && docs[k] == Top(docs)[i];
    }
  }

  /** Whatever the policy, a result is the top of the sequential
      candidates. */
  lemma FindTopIsTop(policy: Policy, s: Server, idf: Idf, raw: string, pred: DocumentPredicate)
    requires Valid(s)
    ensures var r := FindTopDocuments(policy, s, idf, raw, pred);
      r.Ok? ==>
        && ParseQuery(s.stopWords, raw, true).Ok?
        && r.value == Top(FindAllDocuments(s, idf, ParseQuery(s.stopWords, raw, true).value, pred))
  {
  }

  /** With separated relevances among the candidates, no candidate left
      out of the top documents is more relevant than one kept. */
  lemma FindTopKeepsHighest(policy: Policy, s: Server, idf: Idf, raw: string, pred: DocumentPredicate)
    requires Valid(s)
    ensures var r := FindTopDocuments(policy, s, idf, raw, pred);
      r.Ok? && Separated(Candidates(s, idf, raw, pred).value) ==>
        var all := Candidates(s, idf, raw, pred).value;
        forall i, j :: 0 <= i < |r.value| && 0 <= j < |all| && all[j].relevance > r.value[i].relevance ==>
          all[j] in r.value
  {
    var r := FindTopDocuments(policy, s, idf, raw, pred);
    if r.Ok? && Separated(Candidates(s, idf, raw, pred).value) {
      FindTopIsTop(policy, s, idf, raw, pred);
      var all := Candidates(s, idf, raw, pred).value;
      assert all == FindAllDocuments(s, idf, ParseQuery(s.stopWords, raw, true).value, pred);
      assert r.value == Top(all);
      TopKeepsHighest(all);
    }
  }

  lemma TopMembers(docs: seq<Document>)
    ensures forall i :: 0 <= i < |Top(docs)| ==> Top(docs)[i] in docs
  {
    var top := Top(docs);
    forall i | 0 <= i < |top| ensures top[i] in docs {
      assert top[i] in multiset(top);
    }
  }

  /** Ids ascending in the input stay distinct in the top documents. */
  lemma TopDistinct(docs: seq<Document>)
    requires forall i, j :: 0 <= i < j < |docs| ==> docs[i].id < docs[j].id
    ensures forall i, j :: 0 <= i < j < |Top(docs)| ==> Top(docs)[i].id != Top(docs)[j].id
  {
    var top := Top(docs);
    TopMembers(docs);
    forall i, j | 0 <= i < j < |top|
      ensures top[i].id != top[j].id
    {
      var a :| 0 <= a < |docs| && docs[a] == top[i];
      var b :| 0 <= b < |docs| && docs[b] == top[j];
      assert a == b || docs[a].id != docs[b].id;
      OnceInAscending(docs, a);
      assert top[i] != top[j] || multiset(top)[top[i]] >= 2 by {
        if top[i] == top[j] {
          DuplicateCount(top, i, j);
        }
      }
    }
  }

  lemma DuplicateCount(docs: seq<Document>, i: nat, j: nat)
    requires i < j < |docs| && docs[i] == docs[j]
    ensures multiset(docs)[docs[i]] >= 2
  {
    var d := docs[i];
    assert docs == docs[..j] + docs[j..];
    assert docs[..j] == docs[..i] + docs[i..j];
    assert docs[i..j][0] == d && docs[j..][0] == d;
    assert multiset(docs[i..j])[d] >= 1;
    assert multiset(docs[j..])[d] >= 1;
  }

  lemma OnceInAscending(docs: seq<Document>, a: nat)
    requires a < |docs|
    requires forall i, j :: 0 <= i < j < |docs| ==> docs[i].id < docs[j].id
    ensures multiset(docs)[docs[a]] == 1
  {
    var d := docs[a];
    assert docs == docs[..a] + [d] + docs[a + 1..];
    assert forall k :: 0 <= k < a ==> docs[..a][k].id < d.id;
    var tail := docs[a + 1..];
    assert forall k :: 0 <= k < |tail| ==> tail[k].id > d.id;
  }

  /** The two policies agree whenever the parallel one does not terminate. */
  lemma FindTopDocumentsPoliciesAgree(s: Server, idf: Idf, raw: string, pred: DocumentPredicate)
    requires Valid(s)
    ensures FindTopDocuments(Parallel, s, idf, raw, pred).Ok? ==>
      FindTopDocuments(Parallel, s, idf, raw, pred) == FindTopDocuments(Sequential, s, idf, raw, pred)
  {
  }

  /** `FindTopDocuments(policy, raw_query, status)`: filter by status. */
  function FindTopDocumentsByStatus(policy: Policy, s: Server, idf: Idf, raw: string, status: Status)
    : (r: Result<seq<Document>>)
    requires Valid(s)
    ensures r.Ok? ==> forall i :: 0 <= i < |r.value| ==>
      r.value[i].id in s.documents && s.documents[r.value[i].id].status == status
    ensures r == FindTopDocuments(policy, s, idf, raw, StatusIs(status))
  {
    FindTopDocumentsFound(policy, s, idf, raw, StatusIs(status));
    FindTopDocuments(policy, s, idf, raw, StatusIs(status))
  }

  /** `FindTopDocuments(policy, raw_query)`: actual documents only. */
  function FindTopDocumentsActual(policy: Policy, s: Server, idf: Idf, raw: string): (r: Result<seq<Document>>)
    requires Valid(s)
    ensures r == FindTopDocumentsByStatus(policy, s, idf, raw, Actual)
    ensures r == FindTopDocuments(policy, s, idf, raw, StatusIs(Actual))
    ensures r.Ok? ==> forall i :: 0 <= i < |r.value| ==>
      r.value[i].id in s.documents && s.documents[r.value[i].id].status == Actual
  {
    FindTopDocumentsByStatus(policy, s, idf, raw, Actual)
  }
}

=== FILE: request_queues.dfy ===
/** `RequestQueue`: runs `FindTopDocuments` on behalf of its caller and
    keeps the outcomes of the last `MIN_IN_DAY` requests, with a counter
    of requests that found nothing. The counter is lowered on every
    eviction, whatever the evicted request found, so it only counts the
    failures in the window until the window first overflows. */
module RequestQueues {
  import opened Results
  import opened Documents
  import SearchServer
  import opened Ranker

  /** Capacity of the window: one request per minute of a day. */
  const MIN_IN_DAY := 1440

  /** One remembered request: its sequence number and whether it found
      any document. */
  datatype QueryResult = QueryResult(number: int, hasResults: bool)

  datatype RequestQueue = RequestQueue(requests: seq<QueryResult>, noResultRequests: int, currentNumber: int)

  /** What `AddFindRequest` hands back: the queue after the request and
      the documents found. */
  datatype Answer = Answer(queue: RequestQueue, documents: seq<Document>)

  /** The window holds at most `MIN_IN_DAY` entries, numbered
      consecutively up to the last request's number. */
  predicate Valid(q: RequestQueue)
  {
    && |q.requests| <= MIN_IN_DAY
    && |q.requests| <= q.currentNumber
    && forall i :: 0 <= i < |q.requests| ==>
         q.requests[i].number == q.currentNumber - |q.requests| + 1 + i
  }

  /** The constructor: an empty window and a zero counter. */
  function NewQueue(): (r: RequestQueue)
    ensures Valid(r)
    ensures r.requests == [] && GetNoResultRequests(r) == 0 && r.currentNumber == 0
  {
    RequestQueue([], 0, 0)
  }

  /** `GetNoResultRequests`. */
  function GetNoResultRequests(q: RequestQueue): (r: int)
  {
    q.noResultRequests
  }

  /** `AddNewRequest`: the next sequence number is given to the request,
      which is appended with its outcome; an empty result raises the
      counter. */
  function AddNewRequest(q: RequestQueue, docs: seq<Document>): (r: RequestQueue)
    ensures r.currentNumber == q.currentNumber + 1
    ensures |r.requests| == |q.requests| + 1 && r.requests[..|q.requests|] == q.requests
    ensures r.requests[|q.requests|] == QueryResult(r.currentNumber, docs != [])
    ensures r.noResultRequests - q.noResultRequests == (if docs == [] then 1 else 0)
  {
    var number := q.currentNumber + 1;
    if docs == [] then
      RequestQueue(q.requests + [QueryResult(number, false)], q.noResultRequests + 1, number)
    else
      RequestQueue(q.requests + [QueryResult(number, true)], q.noResultRequests, number)
  }

  /** The bookkeeping `AddFindRequest` does after the search: a full
      window first loses its oldest entry and the counter is lowered,
      then the request is added. */
  function Record(q: RequestQueue, docs: seq<Document>): (r: RequestQueue)
    ensures r.currentNumber == q.currentNumber + 1
    ensures var kept := if |q.requests| == MIN_IN_DAY then q.requests[1..] else q.requests;
      r.requests == kept + [QueryResult(q.currentNumber + 1, docs != [])]
    ensures r.noResultRequests ==
      q.noResultRequests - (if |q.requests| == MIN_IN_DAY then 1 else 0) + (if docs == [] then 1 else 0)
  {
    if |q.requests| == MIN_IN_DAY then
      AddNewRequest(RequestQueue(q.requests[1..], q.noResultRequests - 1, q.currentNumber), docs)
    else
      AddNewRequest(q, docs)
  }

  /** Recording a request keeps the window within its capacity and its
      numbering consecutive. */
  lemma RecordValid(q: RequestQueue, docs: seq<Document>)
    requires Valid(q)
    ensures Valid(Record(q, docs))
    ensures |Record(q, docs).requests| == (if |q.requests| == MIN_IN_DAY then MIN_IN_DAY else |q.requests| + 1)
  {
    var r := Record(q, docs);
    var full := |q.requests| == MIN_IN_DAY;
    var kept := if full then q.requests[1..] else q.requests;
    assert r.requests == kept + [QueryResult(q.currentNumber + 1, docs != [])];
    forall i | 0 <= i < |r.requests|
      ensures r.requests[i].number == r.currentNumber - |r.requests| + 1 + i
    {
      if i < |kept| {
        assert r.requests[i] == kept[i];
        if full {
          assert kept[i] == q.requests[i + 1];
        }
      }
    }
  }

  /** `AddFindRequest(raw_query, predicate)`: the sequential
      `FindTopDocuments`, whose result is recorded and returned; when the
      search throws, the exception leaves the queue as it was. */
  function AddFindRequest(q: RequestQueue, s: SearchServer.Server, idf: Idf, raw: string, pred: DocumentPredicate)
    : (r: Result<Answer>)
    requires SearchServer.Valid(s)
    ensures var found := FindTopDocuments(SearchServer.Sequential, s, idf, raw, pred);
      && (r.Ok? <==> found.Ok?)
      && (r.Err? ==> r.error == found.error)
      && (r.Ok? ==> r.value.documents == found.value && r.value.queue == Record(q, found.value))
  {
    var docs :- FindTopDocuments(SearchServer.Sequential, s, idf, raw, pred);
    Ok(Answer(Record(q, docs), docs))
  }

  /** `AddFindRequest(raw_query, status)`: documents with that status. */
  function AddFindRequestByStatus(q: RequestQueue, s: SearchServer.Server, idf: Idf, raw: string, status: Status)
    : (r: Result<Answer>)
    requires SearchServer.Valid(s)
    ensures r.Ok? ==> forall i :: 0 <= i < |r.value.documents| ==>
      r.value.documents[i].id in s.documents && s.documents[r.value.documents[i].id].status == status
    ensures r == AddFindRequest(q, s, idf, raw, StatusIs(status))
  {
    FindTopDocumentsFound(SearchServer.Sequential, s, idf, raw, StatusIs(status));
    AddFindRequest(q, s, idf, raw, StatusIs(status))
  }

  /** `AddFindRequest(raw_query)`: actual documents only. */
  function AddFindRequestActual(q: RequestQueue, s: SearchServer.Server, idf: Idf, raw: string)
    : (r: Result<Answer>)
    requires SearchServer.Valid(s)
    ensures r == AddFindRequestByStatus(q, s, idf, raw, Actual)
    ensures r == AddFindRequest(q, s, idf, raw, StatusIs(Actual))
    ensures r.Ok? ==> forall i :: 0 <= i < |r.value.documents| ==>
      r.value.documents[i].id in s.documents && s.documents[r.value.documents[i].id].status == Actual
  {
    AddFindRequestByStatus(q, s, idf, raw, Actual)
  }

  // -----------------------------------------------------------------------
  // A run of requests on a new queue

  /** The queue after recording `results` in order on a new queue. */
  function Replay(results: seq<seq<Document>>): RequestQueue
  {
    if results == [] then NewQueue()
    else Record(Replay(results[..|results| - 1]), results[|results| - 1])
  }

  /** How many of the results are empty. */
  function Failures(results: seq<seq<Document>>): nat
  {
    if results == [] then 0
    else Failures(results[..|results| - 1]) + (if results[|results| - 1] == [] then 1 else 0)
  }

  /** How many requests have been evicted after `n` requests. */
  function Evicted(n: nat): nat
  {
    if n > MIN_IN_DAY then n - MIN_IN_DAY else 0
  }

  /** The last `MIN_IN_DAY` requests, numbered from 1 at the first. */
  function Window(results: seq<seq<Document>>): (r: seq<QueryResult>)
  {
    var start := Evicted(|results|);
    seq(|results| - start, k requires 0 <= k < |results| - start =>
      QueryResult(start + k + 1, results[start + k] != []))
  }

  /** After `n` requests the window holds the last `min(n, 1440)` of them,
      oldest first, numbered from 1. */
  lemma {:induction false} ReplayWindow(results: seq<seq<Document>>)
    ensures Valid(Replay(results))
    ensures Replay(results).currentNumber == |results|
    ensures Replay(results).requests == Window(results)
  {
    if results != [] {
      var n := |results|;
      var init := results[..n - 1];
      ReplayWindow(init);
      RecordWindow(Replay(init), results);
    }
  }

  /** Recording the last result on the queue of the earlier ones gives
      the window of all of them. */
  lemma RecordWindow(p: RequestQueue, results: seq<seq<Document>>)
    requires results != []
    requires Valid(p) && p.currentNumber == |results| - 1 && p.requests == Window(results[..|results| - 1])
    ensures var q := Record(p, results[|results| - 1]);
      Valid(q) && q.currentNumber == |results| && q.requests == Window(results)
  {
    RecordValid(p, results[|results| - 1]);
    WindowStep(results);
  }

  /** After `n` requests the counter is the number of empty results less
      the number of evictions. */
  lemma {:induction false} ReplayCounter(results: seq<seq<Document>>)
    ensures GetNoResultRequests(Replay(results)) == Failures(results) - Evicted(|results|)
  {
    if results != [] {
      var n := |results|;
      var init := results[..n - 1];
      ReplayCounter(init);
      ReplayWindow(init);
      assert |Replay(init).requests| == MIN_IN_DAY <==> n - 1 >= MIN_IN_DAY;
    }
  }

  /** The window after one more request: the previous window, less its
      oldest entry when it was full, with the new request appended. */
  lemma WindowStep(results: seq<seq<Document>>)
    requires results != []
    ensures var n := |results|;
      var wi := Window(results[..n - 1]);
      var kept := if |wi| == MIN_IN_DAY then wi[1..] else wi;
      Window(results) == kept + [QueryResult(n, results[n - 1] != [])]
  {
    var n := |results|;
    var init := results[..n - 1];
    var wi := Window(init);
    var w := Window(results);
    var kept := if |wi| == MIN_IN_DAY then wi[1..] else wi;
    var e := QueryResult(n, results[n - 1] != []);
    assert |w| == |kept| + 1;
    forall k | 0 <= k < |w|
      ensures w[k] == (kept + [e])[k]
    {
      if k < |kept| {
        if |wi| == MIN_IN_DAY {
          assert kept[k] == wi[k + 1];
          assert init[Evicted(n - 1) + k + 1] == results[Evicted(n) + k];
        } else {
          assert init[Evicted(n - 1) + k] == results[Evicted(n) + k];
        }
      }
    }
  }

  /** While nothing has been evicted the counter is the number of failures
      in the window. */
  lemma CounterBeforeOverflow(results: seq<seq<Document>>)
    requires |results| <= MIN_IN_DAY
    ensures GetNoResultRequests(Replay(results)) == Failures(results)
    ensures Replay(results).requests == Window(results)
  {
    ReplayWindow(results);
    ReplayCounter(results);
  }

  /** Requests that all found something are no failures. */
  lemma {:induction false} NoFailures(results: seq<seq<Document>>)
    requires forall i :: 0 <= i < |results| ==> results[i] != []
    ensures Failures(results) == 0
  {
    if results != [] {
      NoFailures(results[..|results| - 1]);
    }
  }

  /** After 1441 requests that all found documents, the counter is -1: the
      eviction of a successful request still lowered it. */
  lemma CounterGoesNegative(results: seq<seq<Document>>)
    requires |results| == MIN_IN_DAY + 1
    requires forall i :: 0 <= i < |results| ==> results[i] != []
    ensures GetNoResultRequests(Replay(results)) == -1
  {
    ReplayCounter(results);
    NoFailures(results);
  }

  /** After 1441 requests of which only the first found nothing, the
      counter is 0: the failure was evicted with its entry. */
  lemma FirstFailureEvicted(results: seq<seq<Document>>)
    requires |results| == MIN_IN_DAY + 1
    requires results[0] == [] && forall i :: 1 <= i < |results| ==> results[i] != []
    ensures GetNoResultRequests(Replay(results)) == 0
    ensures forall i :: 0 <= i < |Replay(results).requests| ==> Replay(results).requests[i].hasResults
  {
    ReplayWindow(results);
    ReplayCounter(results);
    var tail := results[1..];
    assert forall i :: 0 <= i < |tail| ==> tail[i] != [] by {
      assert forall i :: 0 <= i < |tail| ==> tail[i] == results[i + 1];
    }
    NoFailures(tail);
    FailuresCons(results);
  }

  /** The failures of a run are its first result's plus the rest's. */
  lemma {:induction false} FailuresCons(results: seq<seq<Document>>)
    requires results != []
    ensures Failures(results) == (if results[0] == [] then 1 else 0) + Failures(results[1..])
  {
    var n := |results|;
    if n > 1 {
      var init := results[..n - 1];
      FailuresCons(init);
      assert init[1..] == results[1..][..n - 2];
      assert init[0] == results[0];
      assert results[1..][n - 2] == results[n - 1];
    }
  }
}

=== FILE: results.dfy ===
/** Outcomes of the operations that throw in the C++ code: a value or the
    exception that would have been raised. */
module Results {

  /** Why `std::invalid_argument` was thrown. */
  datatype Reason =
    | NegativeId           // AddDocument with id < 0
    | DuplicateId          // AddDocument with an id already present
    | InvalidDocumentWord  // a document word holds a control character
    | InvalidStopWord      // a stop word holds a control character
    | EmptyQueryWord       // ParseQueryWord on an empty token
    | InvalidQueryWord     // "-", a "--" prefix, or a control character

  datatype Error =
    | InvalidArgument(reason: Reason)
      /** `std::out_of_range` from `std::map::at` on a missing key. */
    | OutOfRange
      /** An exception escaping the element function of a parallel
          algorithm, on which the standard library calls `std::terminate`. */
    | Terminated

  /** Failure-compatible result, so that `:-` propagates the first error. */
  datatype Result<+T> = Ok(value: T) | Err(error: Error) {

    predicate IsFailure() {
      Err?
    }

    function PropagateFailure<U>(): Result<U>
      requires Err?
    {
      Err(error)
    }

    function Extract(): T
      requires Ok?
    {
      value
    }
  }
}

=== FILE: search_server.dfy ===
/** The document store of `SearchServer`: the stop words, per-document
    data, the forward index (word -> id -> tf), the reverse index
    (id -> word -> tf) and the set of live ids; with the operations that
    build and tear them down. */
module SearchServer {
  import opened Results
  import opened Documents
  import opened StringProcessing
  import IdOrder
  import Sums

  /** term frequencies of one word, by document id */
  type Postings = map<int, real>
  /** term frequencies of one document, by word */
  type Frequencies = map<string, real>

  datatype Server = Server(
    stopWords: set<string>,
    documents: map<int, DocumentData>,
    wordToDocumentFreqs: map<string, Postings>,
    idToDocumentFreqs: map<int, Frequencies>,
    documentIds: set<int>)

  /** Free of control characters: `none_of(c >= '\0' && c < ' ')`. */
  predicate IsValidWord(w: string)
  {
    forall i :: 0 <= i < |w| ==> !('\0' <= w[i] < ' ')
  }

  /** The forward and reverse index hold the same (word, id, tf) triples. */
  predicate IndexesAgree(fwd: map<string, Postings>, rev: map<int, Frequencies>)
  {
    && (forall w, d :: w in fwd && d in fwd[w] ==> d in rev && w in rev[d] && rev[d][w] == fwd[w][d])
    && (forall d, w :: d in rev && w in rev[d] ==> w in fwd && d in fwd[w])
  }

  /** The consistency the class keeps between its members. A forward-index
      word may have lost all its ids (removal leaves the empty bucket), but
      a reverse-index entry always has words: a document with no indexed
      word has no reverse entry at all. */
  predicate Valid(s: Server)
  {
    && s.documentIds == s.documents.Keys
    && (forall d :: d in s.documents ==> d >= 0)
    && (forall w :: w in s.stopWords ==> w != [] && IsValidWord(w))
    && (forall d :: d in s.idToDocumentFreqs ==> d in s.documents && s.idToDocumentFreqs[d] != map[])
    && (forall w :: w in s.wordToDocumentFreqs ==> IsToken(w) && IsValidWord(w) && w !in s.stopWords)
    && IndexesAgree(s.wordToDocumentFreqs, s.idToDocumentFreqs)
  }

  /** Every id of the forward index is a stored document. */
  predicate PostingsStored(s: Server)
  {
    forall w, d :: w in s.wordToDocumentFreqs && d in s.wordToDocumentFreqs[w] ==> d in s.documents
  }

  lemma ValidPostingsStored(s: Server)
    requires Valid(s)
    ensures PostingsStored(s)
  {
  }

  // -----------------------------------------------------------------------
  // Construction

  /** The non-empty strings of the input, each once. */
  function MakeUniqueNonEmptyStrings(strings: seq<string>): (r: set<string>)
    ensures forall w :: w in r <==> w in strings && w != []
  {
    if strings == [] then {}
    else
      var rest := MakeUniqueNonEmptyStrings(strings[1..]);
      assert forall w :: w in strings <==> w == strings[0] || w in strings[1..] by {
        assert strings == [strings[0]] + strings[1..];
      }
      if strings[0] == [] then rest else {strings[0]} + rest
  }

  /** The container constructor: every non-empty stop word must be free of
      control characters. */
  function NewServer(stopWords: seq<string>): (r: Result<Server>)
    ensures r.Ok? <==> forall w :: w in stopWords && w != [] ==> IsValidWord(w)
    ensures r.Err? ==> r.error == InvalidArgument(InvalidStopWord)
    ensures r.Ok? ==> Valid(r.value)
    ensures r.Ok? ==> (forall w :: w in r.value.stopWords <==> w in stopWords && w != [])
    ensures r.Ok? ==> r.value.documents == map[] && r.value.documentIds == {}
    ensures r.Ok? ==> r.value.wordToDocumentFreqs == map[] && r.value.idToDocumentFreqs == map[]
  {
    var words := MakeUniqueNonEmptyStrings(stopWords);
    if exists w :: w in words && !IsValidWord(w) then Err(InvalidArgument(InvalidStopWord))
    else Ok(Server(words, map[], map[], map[], {}))
  }

  /** The string constructor: stop words are the tokens of the text. */
  function NewServerFromText(stopWordsText: string): (r: Result<Server>)
    ensures r.Ok? <==> forall w :: w in SplitIntoWords(stopWordsText) ==> IsValidWord(w)
    ensures r.Ok? ==> (forall w :: w in r.value.stopWords <==> w in SplitIntoWords(stopWordsText))
  {
    NewServer(SplitIntoWords(stopWordsText))
  }

  // -----------------------------------------------------------------------
  // Document text and ratings

  /** `SplitIntoWordsNoStop` over the tokens of a document: the first
      invalid token throws; stop words are dropped; order and repetitions
      of the remaining words are kept. */
  function SplitIntoWordsNoStop(stopWords: set<string>, tokens: seq<string>): (r: Result<seq<string>>)
    ensures r.Ok? <==> forall t :: t in tokens ==> IsValidWord(t)
    ensures r.Err? ==> r.error == InvalidArgument(InvalidDocumentWord)
    ensures r.Ok? ==> forall w :: multiset(r.value)[w] == if w in stopWords then 0 else multiset(tokens)[w]
    ensures r.Ok? ==> forall i :: 0 <= i < |r.value| ==> r.value[i] in tokens && r.value[i] !in stopWords
  {
    if tokens == [] then Ok([])
    else if !IsValidWord(tokens[0]) then Err(InvalidArgument(InvalidDocumentWord))
    else
      assert tokens == [tokens[0]] + tokens[1..];
      var rest :- SplitIntoWordsNoStop(stopWords, tokens[1..]);
      Ok((if tokens[0] in stopWords then [] else [tokens[0]]) + rest)
  }

  function SumOf(xs: seq<int>): int
  {
    if xs == [] then 0 else xs[0] + SumOf(xs[1..])
  }

  function Abs(x: int): nat
  {
    if x < 0 then -x else x
  }

  /** C++ `int` division, which truncates toward zero (Dafny's `/` is
      Euclidean). */
  function TruncatingDivision(a: int, b: int): int
    requires b > 0
  {
    if a >= 0 then a / b else -((-a) / b)
  }

  lemma DivisionBounds(x: nat, b: int)
    requires b > 0
    ensures x / b >= 0
    ensures (x / b) * b <= x < (x / b + 1) * b
  {
    var q := x / b;
    assert x == q * b + x % b;
    assert (q + 1) * b == q * b + b;
  }

  lemma TruncationBounds(a: int, b: int)
    requires b > 0
    ensures Abs(TruncatingDivision(a, b)) * b <= Abs(a) < (Abs(TruncatingDivision(a, b)) + 1) * b
    ensures TruncatingDivision(a, b) == 0 || (TruncatingDivision(a, b) < 0 <==> a < 0)
  {
    DivisionBounds(Abs(a), b);
  }

  /** The average rating, truncated toward zero; 0 without ratings. */
  function ComputeAverageRating(ratings: seq<int>): (r: int)
    ensures ratings == [] ==> r == 0
    ensures ratings != [] ==>
      var n := |ratings|;
      var total := SumOf(ratings);
      && Abs(r) * n <= Abs(total) < (Abs(r) + 1) * n
      && (r == 0 || (r < 0 <==> total < 0))
  {
    if ratings == [] then 0
    else
      TruncationBounds(SumOf(ratings), |ratings|);
      TruncatingDivision(SumOf(ratings), |ratings|)
  }

  /** Truncation and Euclidean division part ways on negative sums. */
  lemma TruncationDiffersFromEuclid()
    ensures ComputeAverageRating([-1, -2]) == -1
    ensures SumOf([-1, -2]) / 2 == -2
  {
  }

  // -----------------------------------------------------------------------
  // AddDocument

  function Get<K>(m: map<K, real>, k: K): real
  {
    if k in m then m[k] else 0.0
  }

  /** The reverse-index entry of `id`, or the empty map. */
  function Entry(rev: map<int, Frequencies>, id: int): Frequencies
  {
    if id in rev then rev[id] else map[]
  }

  /** The indexing loop of `AddDocument`: each word occurrence adds `inv`
      to the (word, id) entry of both indexes, creating entries on first
      use (`operator[]` inserts zero). */
  function IndexWords(fwd: map<string, Postings>, rev: map<int, Frequencies>, id: int,
                      words: seq<string>, inv: real): (r: (map<string, Postings>, map<int, Frequencies>))
    decreases |words|
  {
    if words == [] then (fwd, rev)
    else
      var (fwd', rev') := IndexWord(fwd, rev, id, words[0], inv);
      IndexWords(fwd', rev', id, words[1..], inv)
  }

  /** One pass of the loop body: `+= inv` on both `[id][w]` and `[w][id]`. */
  function IndexWord(fwd: map<string, Postings>, rev: map<int, Frequencies>, id: int,
                     w: string, inv: real): (r: (map<string, Postings>, map<int, Frequencies>))
  {
    var freqs := Entry(rev, id);
    var postings := if w in fwd then fwd[w] else map[];
    (fwd[w := postings[id := Get(postings, id) + inv]], rev[id := freqs[w := Get(freqs, w) + inv]])
  }

  lemma IndexWordAgrees(fwd: map<string, Postings>, rev: map<int, Frequencies>, id: int, w: string, inv: real)
    requires IndexesAgree(fwd, rev)
    ensures IndexesAgree(IndexWord(fwd, rev, id, w, inv).0, IndexWord(fwd, rev, id, w, inv).1)
  {
    var (fwd', rev') := IndexWord(fwd, rev, id, w, inv);
    var freqs := Entry(rev, id);
    var postings := if w in fwd then fwd[w] else map[];
    assert Get(freqs, w) == Get(postings, id);
    forall w2, d | w2 in fwd' && d in fwd'[w2]
      ensures d in rev' && w2 in rev'[d] && rev'[d][w2] == fwd'[w2][d]
    {
      if w2 == w && d == id {
      } else if w2 == w {
        assert d in fwd[w];
      } else {
        assert d in fwd[w2];
      }
    }
    forall d, w2 | d in rev' && w2 in rev'[d]
      ensures w2 in fwd' && d in fwd'[w2]
    {
      if w2 == w && d == id {
      } else if d == id {
        assert w2 in rev[id];
      } else {
        assert w2 in rev[d];
      }
    }
  }

  lemma {:induction false} IndexWordsAgree(fwd: map<string, Postings>, rev: map<int, Frequencies>, id: int,
                                           words: seq<string>, inv: real)
    requires IndexesAgree(fwd, rev)
    ensures IndexesAgree(IndexWords(fwd, rev, id, words, inv).0, IndexWords(fwd, rev, id, words, inv).1)
    decreases |words|
  {
    if words != [] {
      IndexWordAgrees(fwd, rev, id, words[0], inv);
      var (fwd', rev') := IndexWord(fwd, rev, id, words[0], inv);
      IndexWordsAgree(fwd', rev', id, words[1..], inv);
    }
  }

  /** Indexing touches only the entry of `id` in the reverse index, and
      adds the words to the forward index. */
  lemma {:induction false} IndexWordsFrame(fwd: map<string, Postings>, rev: map<int, Frequencies>, id: int,
                                           words: seq<string>, inv: real)
    ensures var r := IndexWords(fwd, rev, id, words, inv);
      && (forall d :: d != id ==> (d in r.1 <==> d in rev))
      && (forall d :: d != id && d in rev ==> r.1[d] == rev[d])
      && (id in r.1 <==> id in rev || words != [])
      && (forall w :: w in r.0 <==> w in fwd || w in words)
    decreases |words|
  {
    if words != [] {
      var (fwd', rev') := IndexWord(fwd, rev, id, words[0], inv);
      IndexWordsFrame(fwd', rev', id, words[1..], inv);
      assert forall w :: w in words <==> w == words[0] || w in words[1..] by {
        assert words == [words[0]] + words[1..];
      }
    }
  }

  lemma CountCons(words: seq<string>)
    requires words != []
    ensures forall w :: multiset(words)[w] == multiset(words[1..])[w] + (if w == words[0] then 1 else 0)
    ensures forall w :: w in words <==> w == words[0] || w in words[1..]
  {
    assert words == [words[0]] + words[1..];
    assert multiset(words) == multiset([words[0]]) + multiset(words[1..]);
  }

  /** The per-document view of the indexing loop: `+= inv` per word. */
  function Tally(freqs: Frequencies, words: seq<string>, inv: real): Frequencies
    decreases |words|
  {
    if words == [] then freqs else Tally(freqs[words[0] := Get(freqs, words[0]) + inv], words[1..], inv)
  }

  /** The reverse-index entry of `id` is built exactly like `Tally`. */
  lemma {:induction false} IndexWordsEntry(fwd: map<string, Postings>, rev: map<int, Frequencies>, id: int,
                                           words: seq<string>, inv: real)
    ensures Entry(IndexWords(fwd, rev, id, words, inv).1, id) == Tally(Entry(rev, id), words, inv)
    decreases |words|
  {
    if words != [] {
      var r := IndexWord(fwd, rev, id, words[0], inv);
      assert Entry(r.1, id) == Entry(rev, id)[words[0] := Get(Entry(rev, id), words[0]) + inv];
      IndexWordsEntry(r.0, r.1, id, words[1..], inv);
    }
  }

  /** The tallied map gains exactly the words. */
  lemma {:induction false} TallyKeys(freqs: Frequencies, words: seq<string>, inv: real)
    ensures forall w :: w in Tally(freqs, words, inv) <==> w in freqs || w in words
    decreases |words|
  {
    if words != [] {
      TallyKeys(freqs[words[0] := Get(freqs, words[0]) + inv], words[1..], inv);
      CountCons(words);
    }
  }

  /** The value for `w` grows by count(w) * inv. */
  lemma {:induction false} TallyValues(freqs: Frequencies, words: seq<string>, inv: real, w: string)
    ensures Get(Tally(freqs, words, inv), w) == Get(freqs, w) + (multiset(words)[w] as real) * inv
  {
    TallyRepeats(freqs, words, inv, w);
    Repeated(multiset(words)[w], inv);
  }

  /** `inv` added `k` times. */
  function Repeat(k: nat, inv: real): real
  {
    if k == 0 then 0.0 else Repeat(k - 1, inv) + inv
  }

  lemma {:induction false} Repeated(k: nat, inv: real)
    ensures Repeat(k, inv) == (k as real) * inv
  {
    if k > 0 {
      Repeated(k - 1, inv);
      Distribute(k - 1, inv);
    }
  }

  lemma {:induction false} TallyRepeats(freqs: Frequencies, words: seq<string>, inv: real, w: string)
    ensures Get(Tally(freqs, words, inv), w) == Get(freqs, w) + Repeat(multiset(words)[w], inv)
    decreases |words|
  {
    if words != [] {
      var w0 := words[0];
      var next := freqs[w0 := Get(freqs, w0) + inv];
      TallyRepeats(next, words[1..], inv, w);
      CountCons(words);
    }
  }

  lemma Distribute(k: nat, inv: real)
    ensures ((k + 1) as real) * inv == (k as real) * inv + inv
  {
  }

  /** The total grows by |words| * inv. */
  lemma {:induction false} TallySum(freqs: Frequencies, words: seq<string>, inv: real)
    ensures Sums.Sum(Tally(freqs, words, inv)) == Sums.Sum(freqs) + (|words| as real) * inv
  {
    TallySumRepeats(freqs, words, inv);
    Repeated(|words|, inv);
  }

  lemma {:induction false} TallySumRepeats(freqs: Frequencies, words: seq<string>, inv: real)
    ensures Sums.Sum(Tally(freqs, words, inv)) == Sums.Sum(freqs) + Repeat(|words|, inv)
    decreases |words|
  {
    if words != [] {
      var w0 := words[0];
      var next := freqs[w0 := Get(freqs, w0) + inv];
      Sums.SumUpdate(freqs, w0, Get(freqs, w0) + inv);
      TallySumRepeats(next, words[1..], inv);
    }
  }

  /** `1.0 / words.size()`; infinite for an empty list in C++, but then
      the indexing loop never reads it. */
  function Inverse(words: seq<string>): real
  {
    if words == [] then 0.0 else 1.0 / (|words| as real)
  }

  /** `AddDocument`: rejects a negative or present id and any word with a
      control character before touching the state; then indexes the
      non-stop words with tf = occurrences / non-stop word count. A text
      with no non-stop word gets a `documents_` entry and an id but no
      index entry. */
  function AddDocument(s: Server, id: int, text: string, status: Status, ratings: seq<int>): (r: Result<Server>)
    ensures id < 0 ==> r == Err(InvalidArgument(NegativeId))
    ensures id >= 0 && id in s.documents ==> r == Err(InvalidArgument(DuplicateId))
    ensures id >= 0 && id !in s.documents ==>
      (r.Err? <==> exists t :: t in SplitIntoWords(text) && !IsValidWord(t))
    ensures id >= 0 && id !in s.documents && r.Err? ==> r.error == InvalidArgument(InvalidDocumentWord)
    ensures r.Ok? ==>
      && r.value.documents == s.documents[id := DocumentData(ComputeAverageRating(ratings), status)]
      && r.value.documentIds == s.documentIds + {id}
      && r.value.stopWords == s.stopWords
  {
    if id < 0 then Err(InvalidArgument(NegativeId))
    else if id in s.documents then Err(InvalidArgument(DuplicateId))
    else
      var words :- SplitIntoWordsNoStop(s.stopWords, SplitIntoWords(text));
      Ok(AddWords(s, id, words, DocumentData(ComputeAverageRating(ratings), status)))
  }

  /** The state change of a successful `AddDocument`, given its non-stop
      words. */
  function AddWords(s: Server, id: int, words: seq<string>, data: DocumentData): Server
  {
    var (fwd, rev) := IndexWords(s.wordToDocumentFreqs, s.idToDocumentFreqs, id, words, Inverse(words));
    Server(s.stopWords, s.documents[id := data], fwd, rev, s.documentIds + {id})
  }



  /** The words `AddDocument` may index. */
  predicate Indexable(s: Server, words: seq<string>)
  {
    forall i :: 0 <= i < |words| ==> IsToken(words[i]) && IsValidWord(words[i]) && words[i] !in s.stopWords
  }

  lemma AddWordsValid(s: Server, id: int, words: seq<string>, data: DocumentData)
    requires Valid(s) && id >= 0 && id !in s.documents && Indexable(s, words)
    ensures Valid(AddWords(s, id, words, data))
  {
    var inv := Inverse(words);
    var t := AddWords(s, id, words, data);
    IndexWordsAgree(s.wordToDocumentFreqs, s.idToDocumentFreqs, id, words, inv);
    IndexWordsFrame(s.wordToDocumentFreqs, s.idToDocumentFreqs, id, words, inv);
    AddWordsEntry(s, id, words, data);
    assert forall w :: w in words ==> IsToken(w) && IsValidWord(w) && w !in s.stopWords;
  }

  /** The new reverse entry is the tally of the words. */
  lemma AddWordsEntry(s: Server, id: int, words: seq<string>, data: DocumentData)
    requires Valid(s) && id !in s.documents
    ensures var t := AddWords(s, id, words, data);
      && (id in t.idToDocumentFreqs <==> words != [])
      && (words != [] ==> t.idToDocumentFreqs[id] == Tally(map[], words, Inverse(words)))
      && (words != [] ==> t.idToDocumentFreqs[id] != map[])
  {
    var inv := Inverse(words);
    assert id !in s.idToDocumentFreqs;
    IndexWordsFrame(s.wordToDocumentFreqs, s.idToDocumentFreqs, id, words, inv);
    IndexWordsEntry(s.wordToDocumentFreqs, s.idToDocumentFreqs, id, words, inv);
    TallyKeys(map[], words, inv);
    assert words != [] ==> words[0] in words;
  }

  /** Term frequencies of a non-empty word list: each word's share of
      the list, summing to one. */
  lemma TermFrequencies(words: seq<string>)
    requires words != []
    ensures var entry := Tally(map[], words, Inverse(words));
      && (forall w :: w in entry <==> w in words)
      && (forall w :: w in entry ==> entry[w] == (multiset(words)[w] as real) / (|words| as real))
      && Sums.Sum(entry) == 1.0
  {
    TallyKeys(map[], words, Inverse(words));
    TermFrequencySum(words);
    forall w | w in Tally(map[], words, Inverse(words)) {
      TermFrequency(words, w);
    }
  }

  lemma TermFrequencySum(words: seq<string>)
    requires words != []
    ensures Sums.Sum(Tally(map[], words, Inverse(words))) == 1.0
  {
    TallySum(map[], words, Inverse(words));
    var n := |words| as real;
    assert n * (1.0 / n) == 1.0;
  }

  lemma {:induction false} TermFrequency(words: seq<string>, w: string)
    requires words != []
    ensures Get(Tally(map[], words, Inverse(words)), w) == (multiset(words)[w] as real) / (|words| as real)
  {
    var inv := Inverse(words);
    var n := |words| as real;
    assert inv == 1.0 / n;
    TallyValues(map[], words, inv, w);
    var m: Frequencies := map[];
    assert Get(m, w) == 0.0;
    Share(Get(Tally(map[], words, inv), w), multiset(words)[w] as real, inv, n);
  }

  lemma Share(x: real, c: real, inv: real, n: real)
    requires n > 0.0 && inv == 1.0 / n
    requires x == 0.0 + c * inv
    ensures x == c / n
  {
  }

  /** Other documents keep their entries, and an empty word list leaves
      both indexes as they were. */
  lemma AddWordsFrame(s: Server, id: int, words: seq<string>, data: DocumentData)
    ensures var t := AddWords(s, id, words, data);
      && (forall d :: d != id ==> (d in t.idToDocumentFreqs <==> d in s.idToDocumentFreqs))
      && (forall d :: d != id && d in s.idToDocumentFreqs ==> t.idToDocumentFreqs[d] == s.idToDocumentFreqs[d])
      && (forall w :: w in t.wordToDocumentFreqs <==> w in s.wordToDocumentFreqs || w in words)
      && (words == [] ==>
            t.idToDocumentFreqs == s.idToDocumentFreqs && t.wordToDocumentFreqs == s.wordToDocumentFreqs)
  {
    IndexWordsFrame(s.wordToDocumentFreqs, s.idToDocumentFreqs, id, words, Inverse(words));
  }

  /** The non-stop words of a text are indexable. */
  lemma NoStopIndexable(s: Server, tokens: seq<string>)
    requires forall i :: 0 <= i < |tokens| ==> IsToken(tokens[i])
    requires SplitIntoWordsNoStop(s.stopWords, tokens).Ok?
    ensures Indexable(s, SplitIntoWordsNoStop(s.stopWords, tokens).value)
  {
    var words := SplitIntoWordsNoStop(s.stopWords, tokens).value;
    forall i | 0 <= i < |words|
      ensures IsToken(words[i]) && IsValidWord(words[i]) && words[i] !in s.stopWords
    {
      var j :| 0 <= j < |tokens| && tokens[j] == words[i];
    }
  }

  /** Adding a document keeps the class invariant. */
  lemma AddDocumentValid(s: Server, id: int, text: string, status: Status, ratings: seq<int>)
    requires Valid(s)
    ensures var r := AddDocument(s, id, text, status, ratings);
      r.Ok? ==> Valid(r.value)
  {
    var r := AddDocument(s, id, text, status, ratings);
    if r.Ok? {
      var tokens := SplitIntoWords(text);
      var words := SplitIntoWordsNoStop(s.stopWords, tokens);
      var data := DocumentData(ComputeAverageRating(ratings), status);
      assert r.value == AddWords(s, id, words.value, data);
      NoStopIndexable(s, tokens);
      AddWordsValid(s, id, words.value, data);
    }
  }

  /** The new document's reverse entry holds exactly the text's non-stop
      words, each with tf = occurrences / number of non-stop words, so the
      tfs sum to one; the forward index gains exactly those words; a text without non-stop words leaves both indexes as
      they were; other documents keep their entries. */
  lemma AddDocumentIndexes(s: Server, id: int, text: string, status: Status, ratings: seq<int>)
    requires Valid(s)
    ensures var r := AddDocument(s, id, text, status, ratings);
      var tokens := SplitIntoWords(text);
      var words := SplitIntoWordsNoStop(s.stopWords, tokens);
      r.Ok? ==>
        && words.Ok?
        && (forall d :: d != id ==> (d in r.value.idToDocumentFreqs <==> d in s.idToDocumentFreqs))
        && (forall d :: d != id && d in s.idToDocumentFreqs ==>
              r.value.idToDocumentFreqs[d] == s.idToDocumentFreqs[d])
        && (forall w :: w in r.value.wordToDocumentFreqs <==> w in s.wordToDocumentFreqs || w in words.value)
        && (words.value == [] ==>
              && r.value.idToDocumentFreqs == s.idToDocumentFreqs
              && r.value.wordToDocumentFreqs == s.wordToDocumentFreqs)
        && (words.value != [] ==>
              && id in r.value.idToDocumentFreqs
              && (forall w :: w in r.value.idToDocumentFreqs[id] <==> w in tokens && w !in s.stopWords)
              && (forall w :: w in r.value.idToDocumentFreqs[id] ==>
                    r.value.idToDocumentFreqs[id][w] ==
                      (multiset(tokens)[w] as real) / (|words.value| as real))
              && Sums.Sum(r.value.idToDocumentFreqs[id]) == 1.0)
  {
    var r := AddDocument(s, id, text, status, ratings);
    if r.Ok? {
      var tokens := SplitIntoWords(text);
      var words := SplitIntoWordsNoStop(s.stopWords, tokens).value;
      var data := DocumentData(ComputeAverageRating(ratings), status);
      assert r.value == AddWords(s, id, words, data);
      AddWordsFrame(s, id, words, data);
      if words != [] {
        AddWordsEntry(s, id, words, data);
        TermFrequencies(words);
        forall w
          ensures w in words <==> w in tokens && w !in s.stopWords
        {
          assert w in words <==> multiset(words)[w] > 0;
          assert w in tokens <==> multiset(tokens)[w] > 0;
        }
      }
    }
  }

  // -----------------------------------------------------------------------
  // Reading the store

  /** `GetDocumentCount`: the size of `documents_`. */
  function GetDocumentCount(s: Server): (r: nat)
    ensures Valid(s) ==> r == |s.documentIds|
  {
    |s.documents|
  }

  /** `begin()`/`end()`: the live ids in ascending order. */
  function Ids(s: Server): (r: seq<int>)
    ensures IdOrder.Ascending(r)
    ensures forall d :: d in r <==> d in s.documentIds
  {
    IdOrder.Sorted(s.documentIds)
  }

  /** `GetWordFrequencies`: the empty map for an unknown id, otherwise the
      reverse entry through `map::at`, which throws for a live document
      that has no indexed word. */
  function GetWordFrequencies(s: Server, id: int): (r: Result<Frequencies>)
    ensures id !in s.documentIds ==> r == Ok(map[])
    ensures id in s.documentIds ==> (r.Ok? <==> id in s.idToDocumentFreqs)
    ensures r.Err? ==> r.error == OutOfRange
  {
    if id !in s.documentIds then Ok(map[])
    else if id in s.idToDocumentFreqs then Ok(s.idToDocumentFreqs[id])
    else Err(OutOfRange)
  }

  /** The frequencies read back through the reverse index are those the
      forward index holds for the document. */
  lemma WordFrequenciesAgree(s: Server, id: int)
    requires Valid(s)
    ensures var r := GetWordFrequencies(s, id);
      r.Ok? ==>
        && (forall w :: w in r.value <==> w in s.wordToDocumentFreqs && id in s.wordToDocumentFreqs[w])
        && (forall w :: w in r.value ==> r.value[w] == s.wordToDocumentFreqs[w][id])
  {
  }

  // -----------------------------------------------------------------------
  // RemoveDocument

  /** The bucket `word_to_document_freqs_[w]`, empty when absent. */
  function Bucket(fwd: map<string, Postings>, w: string): Postings
  {
    if w in fwd then fwd[w] else map[]
  }

  /** `RemoveDocument`: erase the id from the bucket of every word of the
      document (the bucket stays, possibly empty), then from `documents_`,
      the reverse index and the id set. */
  function RemoveDocument(s: Server, id: int): (r: Result<Server>)
    ensures r.Err? <==> id in s.documentIds && id !in s.idToDocumentFreqs
    ensures r.Err? ==> r.error == OutOfRange
    ensures r.Ok? ==>
      && r.value.stopWords == s.stopWords
      && r.value.documents == s.documents - {id}
      && r.value.idToDocumentFreqs == s.idToDocumentFreqs - {id}
      && r.value.documentIds == s.documentIds - {id}
  {
    var freqs :- GetWordFrequencies(s, id);
    Ok(EraseDocument(s, id, freqs))
  }

  /** The state change of a removal, given the document's words. */
  function EraseDocument(s: Server, id: int, freqs: Frequencies): Server
  {
    var fwd := s.wordToDocumentFreqs;
    Server(
      s.stopWords,
      s.documents - {id},
      map w | w in fwd.Keys + freqs.Keys :: if w in freqs then Bucket(fwd, w) - {id} else fwd[w],
      s.idToDocumentFreqs - {id},
      s.documentIds - {id})
  }

  /** Removal leaves every word in the forward index and takes the id out
      of its bucket. */
  lemma RemoveDocumentBuckets(s: Server, id: int)
    requires Valid(s)
    ensures var r := RemoveDocument(s, id);
      r.Ok? ==>
        && (forall w :: w in r.value.wordToDocumentFreqs <==> w in s.wordToDocumentFreqs)
        && (forall w :: w in s.wordToDocumentFreqs ==>
              r.value.wordToDocumentFreqs[w] == s.wordToDocumentFreqs[w] - {id})
  {
    var r := RemoveDocument(s, id);
    if r.Ok? {
      var freqs := GetWordFrequencies(s, id).value;
      var fwd := s.wordToDocumentFreqs;
      forall w | w in fwd
        ensures r.value.wordToDocumentFreqs[w] == fwd[w] - {id}
      {
        if w !in freqs {
          assert id !in fwd[w];
          assert (forall d :: d in fwd[w] <==> d in fwd[w] - {id})
              && (forall d :: d in fwd[w] ==> fwd[w][d] == (fwd[w] - {id})[d])
              ==> fwd[w] == fwd[w] - {id};
        }
      }
    }
  }

  /** Removal keeps the class invariant. */
  lemma RemoveDocumentValid(s: Server, id: int)
    requires Valid(s)
    ensures var r := RemoveDocument(s, id);
      r.Ok? ==> Valid(r.value)
  {
    var r := RemoveDocument(s, id);
    if r.Ok? {
      RemoveDocumentBuckets(s, id);
      var t := r.value;
      var fwd := s.wordToDocumentFreqs;
      forall w, d | w in t.wordToDocumentFreqs && d in t.wordToDocumentFreqs[w]
        ensures d in t.idToDocumentFreqs && w in t.idToDocumentFreqs[d]
             && t.idToDocumentFreqs[d][w] == t.wordToDocumentFreqs[w][d]
      {
        assert d in fwd[w] && d != id;
      }
    }
  }

  /** An id that is not stored is a no-op. */
  lemma RemoveDocumentUnknown(s: Server, id: int)
    requires Valid(s) && id !in s.documentIds
    ensures RemoveDocument(s, id) == Ok(s)
  {
    RemoveDocumentBuckets(s, id);
    var t := RemoveDocument(s, id).value;
    assert id !in s.documents && id !in s.idToDocumentFreqs;
    assert (forall w :: w in t.wordToDocumentFreqs <==> w in s.wordToDocumentFreqs)
        && (forall w :: w in t.wordToDocumentFreqs ==> t.wordToDocumentFreqs[w] == s.wordToDocumentFreqs[w])
        ==> t.wordToDocumentFreqs == s.wordToDocumentFreqs;
    forall w | w in s.wordToDocumentFreqs
      ensures t.wordToDocumentFreqs[w] == s.wordToDocumentFreqs[w]
    {
      var b := s.wordToDocumentFreqs[w];
      assert id !in b;
      assert (forall d :: d in b <==> d in b - {id}) && (forall d :: d in b ==> b[d] == (b - {id})[d])
          ==> b == b - {id};
    }
    assert s.documents - {id} == s.documents;
    assert s.idToDocumentFreqs - {id} == s.idToDocumentFreqs;
    assert s.documentIds - {id} == s.documentIds;
  }

  /** Removing a stored document lowers the count by one. */
  lemma RemoveDocumentCount(s: Server, id: int)
    requires Valid(s) && id in s.documentIds
    ensures var r := RemoveDocument(s, id);
      r.Ok? ==> GetDocumentCount(r.value) == GetDocumentCount(s) - 1
  {
    RemoveDocumentValid(s, id);
  }

  /** Adding a stored document raises the count by one. */
  lemma AddDocumentCount(s: Server, id: int, text: string, status: Status, ratings: seq<int>)
    requires Valid(s)
    ensures var r := AddDocument(s, id, text, status, ratings);
      r.Ok? ==> GetDocumentCount(r.value) == GetDocumentCount(s) + 1
  {
    var r := AddDocument(s, id, text, status, ratings);
    if r.Ok? {
      var tokens := SplitIntoWords(text);
      var words := SplitIntoWordsNoStop(s.stopWords, tokens);
      var data := DocumentData(ComputeAverageRating(ratings), status);
      assert r.value == AddWords(s, id, words.value, data);
      AddDocumentValid(s, id, text, status, ratings);
      AddWordsCount(s, id, words.value, data);
    }
  }

  lemma AddWordsCount(s: Server, id: int, words: seq<string>, data: DocumentData)
    requires id !in s.documents
    ensures |AddWords(s, id, words, data).documents| == |s.documents| + 1
  {
    assert AddWords(s, id, words, data).documents == s.documents[id := data];
  }

  /** Removing a document just added restores the store, except that the
      forward index keeps the new words' buckets, now empty; but a document
      without non-stop words has no reverse entry and cannot be removed. */
  lemma RemoveAfterAdd(s: Server, id: int, text: string, status: Status, ratings: seq<int>)
    requires Valid(s)
    ensures var r := AddDocument(s, id, text, status, ratings);
      var words := SplitIntoWordsNoStop(s.stopWords, SplitIntoWords(text));
      r.Ok? ==>
        && words.Ok?
        && (words.value == [] ==> RemoveDocument(r.value, id) == Err(OutOfRange))
        && (words.value != [] ==> Restored(s, RemoveDocument(r.value, id)))
  {
    var r := AddDocument(s, id, text, status, ratings);
    if r.Ok? {
      var tokens := SplitIntoWords(text);
      var words := SplitIntoWordsNoStop(s.stopWords, tokens);
      var data := DocumentData(ComputeAverageRating(ratings), status);
      assert r.value == AddWords(s, id, words.value, data);
      NoStopIndexable(s, tokens);
      AddWordsEntry(s, id, words.value, data);
      if words.value != [] {
        RemoveAfterAddWords(s, id, words.value, data);
      }
    }
  }

  /** `u` is `s` again, up to emptied forward-index buckets. */
  predicate Restored(s: Server, u: Result<Server>)
  {
    && u.Ok?
    && u.value.documents == s.documents
    && u.value.idToDocumentFreqs == s.idToDocumentFreqs
    && u.value.documentIds == s.documentIds
    && (forall w :: w in s.wordToDocumentFreqs ==>
          w in u.value.wordToDocumentFreqs && u.value.wordToDocumentFreqs[w] == s.wordToDocumentFreqs[w])
    && (forall w :: w in u.value.wordToDocumentFreqs && w !in s.wordToDocumentFreqs ==>
          u.value.wordToDocumentFreqs[w] == map[])
  }

  lemma RemoveAfterAddWords(s: Server, id: int, words: seq<string>, data: DocumentData)
    requires Valid(s) && id >= 0 && id !in s.documents && Indexable(s, words) && words != []
    ensures Restored(s, RemoveDocument(AddWords(s, id, words, data), id))
  {
    var t := AddWords(s, id, words, data);
    AddWordsValid(s, id, words, data);
    AddWordsFrame(s, id, words, data);
    AddWordsEntry(s, id, words, data);
    RemoveDocumentBuckets(t, id);
    var u := RemoveDocument(t, id).value;
    assert id !in s.idToDocumentFreqs;
    assert (forall d :: d in u.documents <==> d in s.documents)
        && (forall d :: d in u.documents ==> u.documents[d] == s.documents[d])
        ==> u.documents == s.documents;
    assert (forall d :: d in u.idToDocumentFreqs <==> d in s.idToDocumentFreqs)
        && (forall d :: d in u.idToDocumentFreqs ==> u.idToDocumentFreqs[d] == s.idToDocumentFreqs[d])
        ==> u.idToDocumentFreqs == s.idToDocumentFreqs;
    forall w | w in t.wordToDocumentFreqs {
      BucketRestored(s, t, id, w);
    }
  }

  /** A bucket after add-then-erase holds the ids it held before. */
  lemma BucketRestored(s: Server, t: Server, id: int, w: string)
    requires Valid(s) && Valid(t) && id !in s.idToDocumentFreqs
    requires forall d :: d != id ==> (d in t.idToDocumentFreqs <==> d in s.idToDocumentFreqs)
    requires forall d :: d != id && d in s.idToDocumentFreqs ==> t.idToDocumentFreqs[d] == s.idToDocumentFreqs[d]
    requires w in t.wordToDocumentFreqs
    ensures t.wordToDocumentFreqs[w] - {id} == Bucket(s.wordToDocumentFreqs, w)
  {
    var a := t.wordToDocumentFreqs[w] - {id};
    var b := Bucket(s.wordToDocumentFreqs, w);
    forall d | d in a
      ensures d in b && a[d] == b[d]
    {
      assert d in t.idToDocumentFreqs && w in t.idToDocumentFreqs[d];
    }
    forall d | d in b
      ensures d in a
    {
      assert d in s.idToDocumentFreqs && w in s.idToDocumentFreqs[d];
    }
    assert (forall d :: d in a <==> d in b) && (forall d :: d in a ==> a[d] == b[d]) ==> a == b;
  }

  datatype Policy = Sequential | Parallel

  /** The parallel `RemoveDocument` reads the reverse entry with `map::at`
      up front, so it throws for any id without one, stored or not. */
  function RemoveDocumentParallel(s: Server, id: int): (r: Result<Server>)
    ensures r.Err? <==> id !in s.idToDocumentFreqs
    ensures r.Err? ==> r.error == OutOfRange
    ensures r.Ok? ==>
      && r.value.documents == s.documents - {id}
      && r.value.idToDocumentFreqs == s.idToDocumentFreqs - {id}
      && r.value.documentIds == s.documentIds - {id}
  {
    if id !in s.idToDocumentFreqs then Err(OutOfRange)
    else Ok(EraseDocument(s, id, s.idToDocumentFreqs[id]))
  }

  /** On a document with indexed words both policies do the same; they
      part ways on ids without a reverse entry, where the sequential
      version is a no-op (unknown id) and the parallel one throws. */
  lemma RemoveDocumentPoliciesAgree(s: Server, id: int)
    requires Valid(s)
    ensures id in s.idToDocumentFreqs ==> RemoveDocumentParallel(s, id) == RemoveDocument(s, id)
    ensures id !in s.documentIds ==> RemoveDocument(s, id).Ok? && RemoveDocumentParallel(s, id).Err?
  {
  }

  /** `RemoveDocument(policy, id)`. */
  function RemoveDocumentWith(policy: Policy, s: Server, id: int): (r: Result<Server>)
    ensures policy == Sequential ==> r == RemoveDocument(s, id)
    ensures policy == Parallel ==> r == RemoveDocumentParallel(s, id)
    ensures r.Err? ==> r.error == OutOfRange && id !in s.idToDocumentFreqs
    ensures r.Ok? ==>
      && r.value.documents == s.documents - {id}
      && r.value.idToDocumentFreqs == s.idToDocumentFreqs - {id}
      && r.value.documentIds == s.documentIds - {id}
    ensures Valid(s) && r.Ok? ==> Valid(r.value)
  {
    if Valid(s) then
      RemoveDocumentValid(s, id);
      RemoveDocumentPoliciesAgree(s, id);
      PolicyRemove(policy, s, id)
    else PolicyRemove(policy, s, id)
  }

  /** The two overloads the policy selects between. */
  function PolicyRemove(policy: Policy, s: Server, id: int): Result<Server>
  {
    match policy
    case Sequential => RemoveDocument(s, id)
    case Parallel => RemoveDocumentParallel(s, id)
  }
}

=== FILE: string_processing.dfy ===
/** The tokenizer: `SplitIntoWordsView` cuts a string at single spaces
    (`' '` only; tabs and newlines are ordinary characters). */
module StringProcessing {

  /** `find_first_not_of(" ")`: the first non-space position, or `|s|`. */
  function FirstNonSpace(s: string): (k: nat)
    ensures k <= |s|
    ensures forall i :: 0 <= i < k ==> s[i] == ' '
    ensures k < |s| ==> s[k] != ' '
  {
    if s == [] || s[0] != ' ' then 0 else 1 + FirstNonSpace(s[1..])
  }

  /** `find(' ')`: the first space position, or `|s|` standing for `npos`. */
  function FindSpace(s: string): (k: nat)
    ensures k <= |s|
    ensures forall i :: 0 <= i < k ==> s[i] != ' '
    ensures k < |s| ==> s[k] == ' '
  {
    if s == [] || s[0] == ' ' then 0 else 1 + FindSpace(s[1..])
  }

  /** A token as the tokenizer emits it: non-empty and space-free. */
  predicate IsToken(w: string)
  {
    w != [] && forall i :: 0 <= i < |w| ==> w[i] != ' '
  }

  /** `SplitIntoWordsView`: drop the leading spaces; while something is
      left, emit the text up to the next space and drop that space run. */
  function SplitIntoWords(s: string): (r: seq<string>)
    ensures forall i :: 0 <= i < |r| ==> IsToken(r[i])
    decreases |s|
  {
    var t := s[FirstNonSpace(s)..];
    if t == [] then []
    else
      var space := FindSpace(t);
      [t[..space]] + SplitIntoWords(t[space..])
  }

  // ---------------------------------------------------------------------
  // Independent descriptions of what the tokenizer produces

  /** The characters of `s` with every space removed. */
  function StripSpaces(s: string): string
  {
    if s == [] then []
    else (if s[0] == ' ' then [] else [s[0]]) + StripSpaces(s[1..])
  }

  function Concat(ws: seq<string>): string
  {
    if ws == [] then [] else ws[0] + Concat(ws[1..])
  }

  /** Number of maximal runs of non-space characters; `afterSpace` says
      whether the previous character (if any) was a space. */
  function RunsFrom(s: string, afterSpace: bool): nat
  {
    if s == [] then 0
    else if s[0] == ' ' then RunsFrom(s[1..], true)
    else (if afterSpace then 1 else 0) + RunsFrom(s[1..], false)
  }

  function Runs(s: string): nat
  {
    RunsFrom(s, true)
  }

  /** The words separated by single spaces. */
  function Join(ws: seq<string>): string
  {
    if ws == [] then []
    else if |ws| == 1 then ws[0]
    else ws[0] + [' '] + Join(ws[1..])
  }

  // ---------------------------------------------------------------------
  // Properties

  lemma {:induction false} StripSpacesAppend(a: string, b: string)
    ensures StripSpaces(a + b) == StripSpaces(a) + StripSpaces(b)
  {
    if a == [] {
      assert a + b == b;
    } else {
      assert (a + b)[0] == a[0];
      assert (a + b)[1..] == a[1..] + b;
      StripSpacesAppend(a[1..], b);
    }
  }

  lemma {:induction false} StripAllSpaces(s: string)
    requires forall i :: 0 <= i < |s| ==> s[i] == ' '
    ensures StripSpaces(s) == []
  {
    if s != [] { StripAllSpaces(s[1..]); }
  }

  lemma {:induction false} StripNoSpaces(s: string)
    requires forall i :: 0 <= i < |s| ==> s[i] != ' '
    ensures StripSpaces(s) == s
  {
    if s != [] { StripNoSpaces(s[1..]); }
  }

  /** One step of the tokenizer, as an equation. */
  lemma SplitStep(s: string, j: nat, space: nat)
    requires j == FirstNonSpace(s) && j < |s| && space == FindSpace(s[j..])
    ensures SplitIntoWords(s) == [s[j..][..space]] + SplitIntoWords(s[j..][space..])
  {
  }

  lemma ConcatCons(w: string, ws: seq<string>)
    ensures Concat([w] + ws) == w + Concat(ws)
  {
    assert ([w] + ws)[1..] == ws;
  }

  /** The stripped input of one tokenizer step: the skipped spaces add
      nothing and the token is kept whole. */
  lemma {:induction false} StripStep(s: string, j: nat, space: nat)
    requires j == FirstNonSpace(s) && j < |s| && space == FindSpace(s[j..])
    ensures StripSpaces(s) == s[j..][..space] + StripSpaces(s[j..][space..])
  {
    var t := s[j..];
    assert s == s[..j] + t;
    StripSpacesAppend(s[..j], t);
    StripAllSpaces(s[..j]);
    assert t == t[..space] + t[space..];
    StripSpacesAppend(t[..space], t[space..]);
    StripNoSpaces(t[..space]);
  }

  /** Gluing the tokens back together gives the input without its spaces. */
  lemma {:induction false} ConcatSplit(s: string)
    ensures Concat(SplitIntoWords(s)) == StripSpaces(s)
    decreases |s|
  {
    var j := FirstNonSpace(s);
    if j == |s| {
      assert s[j..] == [];
      StripAllSpaces(s);
    } else {
      var t := s[j..];
      var space := FindSpace(t);
      SplitStep(s, j, space);
      StripStep(s, j, space);
      ConcatCons(t[..space], SplitIntoWords(t[space..]));
      ConcatSplit(t[space..]);
    }
  }

  /** No tokens exactly when the input is empty or all spaces. */
  lemma SplitEmpty(s: string)
    ensures SplitIntoWords(s) == [] <==> forall i :: 0 <= i < |s| ==> s[i] == ' '
  {
  }

  lemma {:induction false} RunsSkipSpaces(s: string, j: nat)
    requires j <= |s|
    requires forall i :: 0 <= i < j ==> s[i] == ' '
    ensures RunsFrom(s, true) == RunsFrom(s[j..], true)
  {
    if j > 0 {
      assert s[1..][j - 1..] == s[j..];
      RunsSkipSpaces(s[1..], j - 1);
    }
  }

  lemma {:induction false} RunsSkipWord(s: string, j: nat)
    requires j <= |s|
    requires forall i :: 0 <= i < j ==> s[i] != ' '
    ensures RunsFrom(s, false) == RunsFrom(s[j..], false)
  {
    if j > 0 {
      assert s[1..][j - 1..] == s[j..];
      RunsSkipWord(s[1..], j - 1);
    }
  }

  /** One token per maximal run of non-space characters. */
  lemma {:induction false} SplitCountsRuns(s: string)
    ensures |SplitIntoWords(s)| == Runs(s)
    decreases |s|
  {
    var j := FirstNonSpace(s);
    var t := s[j..];
    RunsSkipSpaces(s, j);
    if t != [] {
      var space := FindSpace(t);
      RunsSkipWord(t[1..], space - 1);
      assert t[1..][space - 1..] == t[space..];
      SplitCountsRuns(t[space..]);
    }
  }

  lemma {:induction false} SplitLeadingSpace(u: string)
    ensures SplitIntoWords([' '] + u) == SplitIntoWords(u)
  {
    var s := [' '] + u;
    assert s[1..] == u;
    assert s[FirstNonSpace(s)..] == u[FirstNonSpace(u)..];
  }

  /** A token followed by nothing or by a space comes out first. */
  lemma {:induction false} SplitTokenFirst(w: string, u: string)
    requires IsToken(w)
    requires u == [] || u[0] == ' '
    ensures SplitIntoWords(w + u) == [w] + SplitIntoWords(u)
  {
    var s := w + u;
    assert s[0] == w[0];
    assert s[0..] == s;
    assert FindSpace(s) == |w| by {
      assert forall i :: 0 <= i < |w| ==> s[i] == w[i];
      assert |w| < |s| ==> s[|w|] == u[0];
    }
    assert s[..|w|] == w && s[|w|..] == u;
  }

  /** A token followed by a space and more text comes out first. */
  lemma SplitTokenSpace(w: string, rest: string)
    requires IsToken(w)
    ensures SplitIntoWords(w + ([' '] + rest)) == [w] + SplitIntoWords(rest)
  {
    SplitTokenFirst(w, [' '] + rest);
    SplitLeadingSpace(rest);
  }

  /** Joining a token in front of more words, then splitting, gives that
      token in front of the split of the rest. */
  lemma JoinStep(w: string, rest: seq<string>)
    requires IsToken(w) && rest != []
    ensures SplitIntoWords(Join([w] + rest)) == [w] + SplitIntoWords(Join(rest))
  {
    var ws := [w] + rest;
    assert ws[0] == w && ws[1..] == rest;
    assert Join(ws) == w + ([' '] + Join(rest));
    SplitTokenSpace(w, Join(rest));
  }

  /** Splitting the space-joined tokens gives the tokens back. */
  lemma {:induction false} SplitJoin(ws: seq<string>)
    requires forall i :: 0 <= i < |ws| ==> IsToken(ws[i])
    ensures SplitIntoWords(Join(ws)) == ws
  {
    if |ws| == 1 {
      SplitTokenFirst(ws[0], []);
      assert ws[0] + [] == ws[0];
    } else if |ws| > 1 {
      var tail := ws[1..];
      assert forall i :: 0 <= i < |tail| ==> tail[i] == ws[i + 1];
      assert ws == [ws[0]] + tail;
      SplitJoin(tail);
      JoinStep(ws[0], tail);
    }
  }

  /** A single space-free word is one token, equal to the input. */
  lemma SplitSingleWord(s: string)
    requires IsToken(s)
    ensures SplitIntoWords(s) == [s]
  {
    SplitJoin([s]);
  }
}

=== FILE: sums.dfy ===
/** Sum of the values of a map, used to state that a document's term
    frequencies add up to one. */
module Sums {

  ghost function Sum<K>(m: map<K, real>): real
  {
    if m == map[] then 0.0
    else
      assert (forall k :: k !in m) ==> m == map[];
      var k :| k in m;
      m[k] + Sum(m - {k})
  }

  /** Any key may be taken out first. */
  lemma {:induction false} SumRemove<K>(m: map<K, real>, k: K)
    requires k in m
    ensures Sum(m) == m[k] + Sum(m - {k})
  {
    var j :| j in m && Sum(m) == m[j] + Sum(m - {j});
    if j != k {
      SumRemove(m - {j}, k);
      SumRemove(m - {k}, j);
      assert m - {j} - {k} == m - {k} - {j};
    }
  }

  /** Replacing or adding one value moves the sum by the difference. */
  lemma SumUpdate<K>(m: map<K, real>, k: K, v: real)
    ensures k in m ==> Sum(m[k := v]) == Sum(m) - m[k] + v
    ensures k !in m ==> Sum(m[k := v]) == Sum(m) + v
  {
    SumRemove(m[k := v], k);
    assert m[k := v] - {k} == m - {k};
    if k in m {
      SumRemove(m, k);
    } else {
      assert m - {k} == m;
    }
  }
}
